=== FILE: README.md ===
# WeBe Estimator kernel in Dafny

The WeBe Estimator is a Next.js front end for writing estimates and invoices. It runs standalone or in a window opened by the WeBe main app. This project models the estimator's kernel:

- **Data.** The document types: clients, line items, estimates and invoices with their statuses, catalog services and parts, and taxes. Also the seed records and the money arithmetic they obey: the subtotal fold, 8% tax and the total.
- **Text helpers.** HTML stripping of rich-text descriptions, the line-item preview with its Show more toggle, avatar initials and the navigation highlight.
- **Configuration.** Origins and base URLs read from environment variables with fallbacks and trailing-slash stripping, plus the anonymous-fallback switch.
- **Session handshake** with the host window. The estimator posts a ready message and accepts an auth message only from the host origin. A successful sign-in stores the session (without the custom token) in session storage. A reset forgets it.
- **Outbound messages.** The payload's page-id fallback order and the endpoint.
- **Library and form dialogs.** The add-from-library picker and the add/edit dialogs for taxes, parts, services and clients. Each has:
  - its validation schema, with the exact messages;
  - the record merge `{...record, ...data}` that keeps the id;
  - the image upload limit of 1 MB;
  - the percent/fraction conversion of tax rates.

Pure code is modelled as datatypes, functions and lemmas. Components and the session provider hold state that handlers update, so they are classes. Their methods state the whole new state.

Values the model takes as parameters:

- the outcome of Firebase sign-in;
- `JSON.parse`/`JSON.stringify`;
- the browser's HTML-to-text projection;
- the schema library's URL and e-mail checks;
- the result of reading a picked file.

## Model

| member | source | states |
|---|---|---|
| Wrappers.OrElse | src/lib/config.ts:1-2 | `a \|\| b` on optional text: the first value when it is present and non-empty, else the second |
| Types.EstimateStatusLabel | src/lib/types.ts:35 | every estimate status prints as one of the four literals Draft, Sent, Approved, Rejected |
| Types.InvoiceStatusLabel | src/lib/types.ts:50 | every invoice status prints as one of Draft, Sent, Paid, Overdue |
| Types.ParseEstimateStatus | src/lib/types.ts:35 | a stored text is accepted exactly when it is one of the four literals, and the status read prints back as that text |
| Types.ParseInvoiceStatus | src/lib/types.ts:50 | same for the four invoice literals |
| Types.StatusLabelsRoundTrip | src/lib/types.ts:35-50 | printing a status and reading it back gives that status, for both unions |
| Money.LineAmount | src/lib/data.ts:28 | a row amount of non-negative quantity and price is non-negative; quantity 1 gives the unit price |
| Money.Subtotal | src/lib/data.ts:28 | an empty list folds to 0; rows with non-negative quantities and prices never fold to a negative subtotal |
| Money.SubtotalAppend | src/lib/data.ts:28 | the reduce over a concatenation is the sum of the reduces over its parts |
| Money.SubtotalSingleton | src/lib/data.ts:28 | a one-row list folds to that row's amount |
| Money.SubtotalRemove | src/lib/data.ts:28 | removing row k, at any position, lowers the subtotal by exactly that row's amount |
| Money.ComputeTotals | src/lib/data.ts:28-29 | subtotal is the fold; total is subtotal times (1 + rate); total minus tax is the subtotal |
| Money.BalanceDue | src/lib/types.ts:48-49 | the balance is zero exactly when the amount paid equals the total; nothing paid leaves the whole total |
| SeedData.SeedSubtotals | src/lib/data.ts:23-36 | the seed folds give 5350 and 6880 |
| SeedData.SeedEstimates | src/lib/data.ts:39-76 | three estimates: EST-2024-001 Approved for the first client, then Sent for the second and Draft for the third |
| SeedData.SeedInvoices | src/lib/data.ts:78-121 | three invoices: the first copies EST-2024-001 and is Paid for the first client, then Overdue for the fourth and Sent for the second |
| SeedData.SeedEstimatesConsistent | src/lib/data.ts:39-76 | every seed estimate, computed or literal, has subtotal = fold, tax = 8% and total = subtotal + tax; totals are 5778 and 7430.4 |
| SeedData.SeedInvoicesConsistent | src/lib/data.ts:78-121 | every seed invoice obeys the same rule |
| SeedData.InvoiceCopiesItsEstimate | src/lib/data.ts:79-91 | INV-2024-001 names EST-2024-001 and carries its client, rows, subtotal, tax and total |
| SeedData.SeedBalances | src/lib/data.ts:90-119 | the Paid invoice has a zero balance; the Overdue and Sent ones have paid nothing and owe their totals |
| Html.SkipTag | src/lib/utils.ts:26 | the tag body `[^>]*>?` after a '<' is consumed; what remains is no longer; with no '>' everything is consumed |
| Html.SkipTagSuffix | src/lib/utils.ts:26 | what a tag match leaves is a suffix of the text |
| Html.StripTags | src/lib/utils.ts:26 | the replacement leaves no '<' and never lengthens the text |
| Html.StripHtml | src/lib/utils.ts:22-26 | null, undefined and "" give ""; other text is stripped of tags |
| Html.ScanInsideTag | src/lib/utils.ts:26 | inside a tag, the two-state scanner resumes outside exactly where a tag match ends |
| Html.StripTagsIsScan | src/lib/utils.ts:26 | the left-to-right replacement equals the independent two-state scanner |
| Html.StripTagsNoTag | src/lib/utils.ts:26 | text without '<' comes back unchanged |
| Html.StripTagsIdempotent | src/lib/utils.ts:26 | stripping twice is stripping once |
| Html.StripTagsSubsequence | src/lib/utils.ts:26 | the result is obtained from the input by deleting characters only |
| Html.StripTagsAppend | src/lib/utils.ts:26 | tag-free text in front is kept and stripping of the rest is unaffected |
| Html.StripClosedTag | src/lib/utils.ts:26 | a '<' … '>' tag is removed whole and stripping resumes after it |
| Html.StripWrapped | src/lib/utils.ts:26 | text wrapped in an opening and a closing tag strips to the text |
| Html.StripParagraph | src/lib/utils.ts:22-26 | `<p>Web Design Consultation</p>` strips to `Web Design Consultation` |
| Config.StripTrailingSlash | src/lib/config.ts:4-7 | empty stays empty; a trailing '/' loses exactly one character; text without one is unchanged |
| Config.StripAppendedSlash | src/lib/config.ts:4-7 | appending '/' and stripping gives back the text |
| Config.StripOnlyOneSlash | src/lib/config.ts:6 | only one slash is removed: "a//" gives "a/" |
| Config.DefaultMainAppOrigin | src/lib/config.ts:1 | the fallback origin variable when non-empty, else https://app.webe.ws; never empty |
| Config.DefaultApiBaseUrl | src/lib/config.ts:2 | the fallback API variable when non-empty, else the default main origin; never empty |
| Config.MainAppOrigin | src/lib/config.ts:10-13 | origin variable, else fallback origin variable, else the built-in origin, with one trailing slash stripped |
| Config.ApiBaseUrl | src/lib/config.ts:14-17 | API variable, else fallback API variable, else the default main origin, with one trailing slash stripped |
| Config.EmptyEnvironmentDefaults | src/lib/config.ts:1-17 | with no variables set, both getters give https://app.webe.ws |
| Config.AllowAnonymousFallback | src/lib/config.ts:24-26 | on exactly when the variable is the text "true" |
| EstimatorSession.LoadStoredSession | src/context/estimator-session.tsx:50-67 | a session is loaded iff the key is present, non-empty, parses and has a non-empty session id; it is the parsed value |
| EstimatorSession.Accepts | src/context/estimator-session.tsx:104-112 | an event is acted on iff it comes from the host origin and carries a message of the auth type |
| EstimatorSession.ToSessionPayload | src/context/estimator-session.tsx:120-128 | the stored session copies session id, page id, user id, expiry, issue time, page and user from the message |
| EstimatorSession.PersistedSessionReloads | src/context/estimator-session.tsx:50-67 | a session written under the storage key by a serialiser the parser inverts is loaded back |
| EstimatorSession.TokenNotKept | src/context/estimator-session.tsx:120-128 | the stored session does not depend on the custom token |
| EstimatorSession.SessionProvider.constructor | src/context/estimator-session.tsx:71-76 | status idle, no session or error, both guards down, host origin read from config |
| EstimatorSession.SessionProvider.SeedFromStorage | src/context/estimator-session.tsx:79-88 | a loadable stored session is set and marked authenticated; otherwise nothing changes |
| EstimatorSession.SessionProvider.SendReady | src/context/estimator-session.tsx:142-148 | exactly one ready message is ever posted, to the host origin |
| EstimatorSession.SessionProvider.RunOpenerEffect | src/context/estimator-session.tsx:90-157 | without an opener: standalone, and one anonymous sign-in iff the fallback is on and loading finished; with one: waiting, ready sent, listener installed |
| EstimatorSession.SessionProvider.Mount | src/context/estimator-session.tsx:79-157 | after both mount effects the restored session is kept but the status is waiting or standalone |
| EstimatorSession.SessionProvider.HandleMessage | src/context/estimator-session.tsx:104-140 | messages from another origin or of another type change nothing; on sign-in success the session (without the token) is set, stored and authenticated; on failure the fixed error is set and the old session kept |
| EstimatorSession.SessionProvider.ResetSession | src/context/estimator-session.tsx:159-165 | session and stored copy removed; status standalone when the fallback is on, else idle |
| EstimatorSession.HandshakeThenReload | src/context/estimator-session.tsx:50-140 | after a successful handshake, a new provider over the same storage reloads the same session |
| WebeApi.MessageEndpoint | src/lib/webe-api.ts:17 | the endpoint is the API base URL followed by /api/estimates/message |
| WebeApi.SlashedBaseEndpoint | src/lib/webe-api.ts:17 | a base URL configured with a trailing slash does not double the slash |
| WebeApi.ResolvePageId | src/lib/webe-api.ts:53-54 | the input page id, else the session page id, else the page context id; the first non-empty wins |
| WebeApi.BuildMessagePayload | src/lib/webe-api.ts:49-68 | fails with the fixed message iff no page id resolves; otherwise the page id is the resolved one (input, else session, else page context), with the input's fields and the session id |
| WebeApi.InputPageIdWins | src/lib/webe-api.ts:53-54 | a page id given by the caller is used whatever the session holds |
| WebeApi.SessionIdFromSession | src/lib/webe-api.ts:66 | payloads built against the same session carry the same session id |
| AddFromLibrary.WithoutId | src/components/add-from-library-dialog.tsx:49 | the filter never grows the list and keeps no entry with the id |
| AddFromLibrary.WithoutIdSpec | src/components/add-from-library-dialog.tsx:49 | the filter keeps exactly the entries with another id, never grows, and changes nothing when the id is absent |
| AddFromLibrary.WithoutIdAppend | src/components/add-from-library-dialog.tsx:47-49 | filtering distributes over concatenation |
| AddFromLibrary.SomeHasId | src/components/add-from-library-dialog.tsx:60 | true iff some entry has the id |
| AddFromLibrary.DecimalText | src/components/add-from-library-dialog.tsx:143 | the count prints as at least one decimal digit |
| AddFromLibrary.DecimalTextRoundTrip | src/components/add-from-library-dialog.tsx:143 | the printed count reads back as the count |
| AddFromLibrary.LibraryDialog.constructor | src/components/add-from-library-dialog.tsx:42-43 | closed, nothing selected |
| AddFromLibrary.LibraryDialog.SetOpen | src/components/add-from-library-dialog.tsx:107 | the open flag is set |
| AddFromLibrary.LibraryDialog.IsItemSelected | src/components/add-from-library-dialog.tsx:59-61 | true iff some selected entry has the id |
| AddFromLibrary.LibraryDialog.HandleSelect | src/components/add-from-library-dialog.tsx:45-51 | checked or indeterminate appends the item; unchecked removes every entry with its id; afterwards the item shows selected iff the state was truthy |
| AddFromLibrary.LibraryDialog.HandleAddClick | src/components/add-from-library-dialog.tsx:53-57 | hands over exactly the selection, then empties it and closes |
| AddFromLibrary.LibraryDialog.AddDisabled | src/components/add-from-library-dialog.tsx:141 | disabled iff no id is selected |
| AddFromLibrary.LibraryDialog.AddLabel | src/components/add-from-library-dialog.tsx:143 | "Add " when nothing is selected, else "Add (n)" with n reading back as the selection's length |
| LineItemRow.PlainText | src/components/line-item-row.tsx:25 | an empty description gives empty text without parsing |
| LineItemRow.IsLong | src/components/line-item-row.tsx:26 | a text is long iff cutting it at 150 characters loses something |
| LineItemRow.Preview | src/components/line-item-row.tsx:26-27 | at most 153 characters; a long text gives its first 150 characters then "..."; a short one is shown whole |
| LineItemRow.PreviewIsPrefix | src/components/line-item-row.tsx:27 | the preview is a prefix of the text, or its first 150 characters then "..." |
| LineItemRow.Row.constructor | src/components/line-item-row.tsx:23-25 | collapsed, with the description's plain text |
| LineItemRow.Row.ShowsToggle | src/components/line-item-row.tsx:26-57 | the toggle shows iff the plain text exceeds 150 characters |
| LineItemRow.Row.Shown | src/components/line-item-row.tsx:49-56 | collapsed shows the preview, at most 153 characters; expanded shows the stored description |
| LineItemRow.Row.ToggleLabel | src/components/line-item-row.tsx:63 | "Show less" exactly while expanded, "Show more" exactly while collapsed |
| LineItemRow.Row.ClickToggle | src/components/line-item-row.tsx:57-61 | a click flips the expanded flag only when the toggle is shown |
| LineItemRow.Row.Amount | src/components/line-item-row.tsx:73 | the amount cell is what the row contributes to the subtotal; non-negative for non-negative inputs |
| UserNav.SplitSpaces | src/components/user-nav.tsx:21 | at least one piece; one piece iff no space, and then the whole name; the first piece is a prefix; no piece has a space |
| UserNav.JoinSplit | src/components/user-nav.tsx:21 | joining the pieces with spaces gives back the name |
| UserNav.SplitJoin | src/components/user-nav.tsx:21 | pieces without spaces split back out of their join |
| UserNav.GetInitials | src/components/user-nav.tsx:19-26 | "U" without a name; the first character for a name without spaces |
| UserNav.InitialsOfWellSpacedName | src/components/user-nav.tsx:19-26 | for a name without empty pieces: one character without a space, two with one; the first character of the name, then of its last piece |
| UserNav.TrailingSpaceInitials | src/components/user-nav.tsx:23 | an empty last piece prints "undefined": "Ada " gives "Aundefined" |
| UserNav.Heading | src/components/user-nav.tsx:51 | "Anonymous User" for an anonymous user, else the display name, else "Account" |
| UserNav.SecondaryLine | src/components/user-nav.tsx:53 | the email, else the uid; nothing without a user |
| MainNav.IsActive | src/components/main-nav.tsx:37-38 | the dashboard on its exact path only; every other entry on any path starting with its href |
| MainNav.NoHrefIsPrefixOfAnother | src/components/main-nav.tsx:21-28 | six entries, none of whose hrefs is a prefix of another's |
| MainNav.AtMostOneActive | src/components/main-nav.tsx:21-38 | on any path, at most one entry is highlighted |
| MainNav.SubpageHighlighting | src/components/main-nav.tsx:37-38 | /dashboard/settings highlights no dashboard entry; /estimates/new highlights estimates |
| Forms.RequiredText | src/components/edit-client-dialog.tsx:22-23 | no issue iff the text is non-empty; otherwise one issue with the field's message |
| Forms.PositiveNumber | src/components/add-part-dialog.tsx:27-34 | no issue iff the number is strictly positive; NaN gives the library's NaN message, others the field's |
| Forms.NonNegativeNumber | src/components/add-tax-dialog.tsx:24-27 | no issue iff the number is zero or more; NaN gives the library's NaN message, others the field's |
| Forms.Preprocess | src/components/edit-part-dialog.tsx:27-30 | a number input never typed into holds a number, which `z.string().parse` refuses with one issue at the root; a typed one passes on its parsed text |
| Forms.Override | src/components/edit-client-dialog.tsx:54 | a value supplied by the form wins; an absent one keeps the record's |
| Forms.RegisteredText | src/components/edit-client-dialog.tsx:97-101 | a plain registered input opens on the record's text, or on "" when the record has none |
| TaxDialogs.ValidateTax | src/components/edit-tax-dialog.tsx:21-27 | accepts iff the name is non-empty and the rate is a number of zero or more; each failing field reports its message |
| TaxDialogs.RateConversionRoundTrip | src/components/edit-tax-dialog.tsx:48-60 | rate * 100 and rate / 100 undo each other in both orders and keep the sign |
| TaxDialogs.EightAndAQuarterPercent | src/components/add-tax-dialog.tsx:56 | 8.25 entered is stored as 0.0825 |
| TaxDialogs.EditDefaults | src/components/edit-tax-dialog.tsx:46-49 | the form opens on the tax's name and an untouched rate that converts back to the tax's rate |
| TaxDialogs.ValidateTaxEdit | src/components/edit-tax-dialog.tsx:21-27 | an untouched rate refuses the form with the single root issue; a typed one is checked by the schema |
| TaxDialogs.NameOnlyEditRefused | src/components/edit-tax-dialog.tsx:44-60 | a form where only the name was edited is refused with the single root issue |
| TaxDialogs.ApplyTaxEdit | src/components/edit-tax-dialog.tsx:60 | the id stays, the name is replaced, the stored rate shows back as the entered percentage |
| TaxDialogs.RetypedEditKeepsTax | src/components/edit-tax-dialog.tsx:46-60 | a valid tax whose rate is retyped as shown validates and is saved back unchanged |
| TaxDialogs.ToNewTax | src/components/add-tax-dialog.tsx:56-57 | the new tax keeps the name and stores the entered percentage as a fraction |
| TaxDialogs.EditTaxDialog.constructor | src/components/edit-tax-dialog.tsx:44-50 | the form opens on the tax with its rate as a percentage |
| TaxDialogs.EditTaxDialog.ReceiveTax | src/components/edit-tax-dialog.tsx:52-57 | a new tax resets the defaults and the values |
| TaxDialogs.EditTaxDialog.EditName | src/components/edit-tax-dialog.tsx:81 | typing a name replaces the name only |
| TaxDialogs.EditTaxDialog.EditRate | src/components/edit-tax-dialog.tsx:86 | typing into the rate replaces it with the parsed text only |
| TaxDialogs.EditTaxDialog.SaveDisabled | src/components/edit-tax-dialog.tsx:93 | Save is disabled iff the values still equal the defaults; a typed rate always enables it |
| TaxDialogs.EditTaxDialog.Submit | src/components/edit-tax-dialog.tsx:59-93 | nothing while Save is disabled; the issues (the root issue when the rate is untouched) when the form fails; otherwise the merged tax is handed over and the dialog asks to close |
| TaxDialogs.EditTaxDialog.Cancel | src/components/edit-tax-dialog.tsx:90 | asks to close and saves nothing |
| TaxDialogs.SaveAfterNameOnlyEdit | src/components/edit-tax-dialog.tsx:44-93 | opening a tax and editing only its name saves nothing: no issue when the name is unchanged, the root issue otherwise |
| TaxDialogs.SaveRetypedRate | src/components/edit-tax-dialog.tsx:44-93 | opening a valid tax, retyping its rate as shown and saving hands over exactly that tax |
| TaxDialogs.AddTaxDialog.constructor | src/components/add-tax-dialog.tsx:38-47 | closed, empty form, nothing added |
| TaxDialogs.AddTaxDialog.SetOpen | src/components/add-tax-dialog.tsx:49-67 | closing clears the form; opening keeps it |
| TaxDialogs.AddTaxDialog.Edit | src/components/add-tax-dialog.tsx:81-86 | the typed values replace the form's |
| TaxDialogs.AddTaxDialog.Submit | src/components/add-tax-dialog.tsx:55-64 | invalid: issues only; valid: one new tax with the rate as a fraction, form cleared, dialog closed |
| PartDialogs.ValidatePart | src/components/edit-part-dialog.tsx:24-36 | accepts iff the name is non-empty and price and cost are strictly positive numbers; each failing field reports its message |
| PartDialogs.ZeroPriceOrCostRejected | src/components/add-part-dialog.tsx:29-33 | a zero price or cost is refused |
| PartDialogs.MergePart | src/components/edit-part-dialog.tsx:93 | the id stays; name, price and cost are replaced; description and image replaced when supplied |
| PartDialogs.DraftOf | src/components/edit-part-dialog.tsx:57-60 | the form opens on the part's fields with price and cost untouched numbers; a part without an image opens with the hidden image input's "" |
| PartDialogs.ValidatePartEdit | src/components/edit-part-dialog.tsx:24-36 | an untouched price or cost refuses the form with the single root issue; once both are typed the schema checks them |
| PartDialogs.UntouchedNumberRefused | src/components/edit-part-dialog.tsx:27-34 | a form whose price or cost is still the opened part's number is refused and no issue names a field |
| PartDialogs.RetypedEditSavesPart | src/components/edit-part-dialog.tsx:59-93 | a valid part with price and cost retyped unchanged validates; it is saved back unchanged when it has an image, and with the image "" when it has none |
| PartDialogs.MergePartIdempotent | src/components/edit-part-dialog.tsx:93 | merging the same values twice is merging once |
| PartDialogs.ToNewPart | src/components/add-part-dialog.tsx:37-57 | the new part carries the validated name, description, price and cost |
| PartDialogs.EditPartDialog.constructor | src/components/edit-part-dialog.tsx:57-60 | the form opens on the part's fields, numbers untouched, a missing image as "" |
| PartDialogs.EditPartDialog.ReceivePart | src/components/edit-part-dialog.tsx:65-67 | a new part resets the values the same way |
| PartDialogs.EditPartDialog.EditName | src/components/edit-part-dialog.tsx:113 | typing a name replaces the name only |
| PartDialogs.EditPartDialog.EditDescription | src/components/edit-part-dialog.tsx:118-128 | the editor's change replaces the description only |
| PartDialogs.EditPartDialog.EditPrice | src/components/edit-part-dialog.tsx:133 | typing into the price replaces it with the parsed text only |
| PartDialogs.EditPartDialog.EditCost | src/components/edit-part-dialog.tsx:138 | typing into the cost replaces it with the parsed text only |
| PartDialogs.EditPartDialog.HandleImageUpload | src/components/edit-part-dialog.tsx:69-86 | a file over 1 MB is refused and the image kept; a smaller one becomes the image; no file changes nothing |
| PartDialogs.EditPartDialog.HandleRemoveImage | src/components/edit-part-dialog.tsx:88-90 | the image becomes the empty text |
| PartDialogs.EditPartDialog.Submit | src/components/edit-part-dialog.tsx:92-99 | the issues (the root issue while price or cost is untouched) when the form fails; otherwise the merged part is handed over and the dialog asks to close |
| PartDialogs.EditPartDialog.Cancel | src/components/edit-part-dialog.tsx:175 | asks to close and saves nothing |
| PartDialogs.SaveWithUntouchedNumbers | src/components/edit-part-dialog.tsx:57-99 | opening a part and editing only its name is refused with the single root issue and saves nothing |
| PartDialogs.SaveRetyped | src/components/edit-part-dialog.tsx:57-99 | opening a valid part, retyping price and cost and saving hands over that part, with the image "" when it had none |
| PartDialogs.AddPartDialog.constructor | src/components/add-part-dialog.tsx:45-54 | closed, empty form, nothing added |
| PartDialogs.AddPartDialog.SetOpen | src/components/add-part-dialog.tsx:67 | the open flag is set |
| PartDialogs.AddPartDialog.Edit | src/components/add-part-dialog.tsx:81-96 | the typed values replace the form's; the add form has no image |
| PartDialogs.AddPartDialog.Submit | src/components/add-part-dialog.tsx:56-64 | invalid: issues only; valid: one new part handed over, form cleared, dialog closed |
| ServiceDialogs.CommonIssues | src/components/add-service-dialog.tsx:25-30 | no issue iff the name is non-empty and the price strictly positive |
| ServiceDialogs.UrlIssues | src/components/add-service-dialog.tsx:31 | no issue iff the image text is absent, empty or a URL; otherwise the URL message |
| ServiceDialogs.ValidateEditService | src/components/edit-service-dialog.tsx:24-32 | accepts iff the name is non-empty and the price strictly positive; each failing field reports its message |
| ServiceDialogs.ValidateNewService | src/components/add-service-dialog.tsx:24-32 | as the edit schema, and the image text must be absent, empty or a URL |
| ServiceDialogs.NewSchemaIsStricter | src/components/add-service-dialog.tsx:31 | the add schema accepts only what the edit schema accepts, and differs only by the URL issue |
| ServiceDialogs.MergeService | src/components/edit-service-dialog.tsx:89 | the id stays; name and price replaced; description and image replaced when supplied |
| ServiceDialogs.DraftOf | src/components/edit-service-dialog.tsx:53-56 | the form opens on the service's fields with the price an untouched number; a service without an image opens with the hidden image input's "" |
| ServiceDialogs.ValidateServiceEdit | src/components/edit-service-dialog.tsx:24-32 | an untouched price refuses the form with the single root issue; a typed one is checked by the schema |
| ServiceDialogs.UntouchedPriceRefused | src/components/edit-service-dialog.tsx:27-30 | a form whose price is still the opened service's number is refused and no issue names a field |
| ServiceDialogs.RetypedEditSavesService | src/components/edit-service-dialog.tsx:55-89 | a valid service with its price retyped unchanged validates; it is saved back unchanged when it has an image, and with the image "" when it has none |
| ServiceDialogs.RemovedImageIsSaved | src/components/edit-service-dialog.tsx:84-89 | after Remove, saving stores an empty image, not the old one |
| ServiceDialogs.ToNewService | src/components/add-service-dialog.tsx:34-54 | the new service carries the validated fields |
| ServiceDialogs.EditServiceDialog.constructor | src/components/edit-service-dialog.tsx:53-56 | the form opens on the service's fields, price untouched, a missing image as "" |
| ServiceDialogs.EditServiceDialog.ReceiveService | src/components/edit-service-dialog.tsx:61-63 | a new service resets the values the same way |
| ServiceDialogs.EditServiceDialog.EditName | src/components/edit-service-dialog.tsx:109 | typing a name replaces the name only |
| ServiceDialogs.EditServiceDialog.EditDescription | src/components/edit-service-dialog.tsx:114-124 | the editor's change replaces the description only |
| ServiceDialogs.EditServiceDialog.EditPrice | src/components/edit-service-dialog.tsx:128 | typing into the price replaces it with the parsed text only |
| ServiceDialogs.EditServiceDialog.HandleImageUpload | src/components/edit-service-dialog.tsx:65-82 | a file over 1 MB is refused and the image kept; a smaller one becomes the image; no file changes nothing |
| ServiceDialogs.EditServiceDialog.HandleRemoveImage | src/components/edit-service-dialog.tsx:84-86 | the image becomes the empty text |
| ServiceDialogs.EditServiceDialog.Submit | src/components/edit-service-dialog.tsx:88-95 | the issues (the root issue while the price is untouched) when the form fails; otherwise the merged service is handed over and the dialog asks to close |
| ServiceDialogs.EditServiceDialog.Cancel | src/components/edit-service-dialog.tsx:164 | asks to close and saves nothing |
| ServiceDialogs.SaveWithUntouchedPrice | src/components/edit-service-dialog.tsx:53-95 | opening a service and editing only its name is refused with the single root issue and saves nothing |
| ServiceDialogs.SaveRetyped | src/components/edit-service-dialog.tsx:53-95 | opening a valid service, retyping its price and saving hands over that service, with the image "" when it had none |
| ServiceDialogs.AddServiceDialog.constructor | src/components/add-service-dialog.tsx:42-51 | closed, empty form, nothing added |
| ServiceDialogs.AddServiceDialog.SetOpen | src/components/add-service-dialog.tsx:64 | the open flag is set |
| ServiceDialogs.AddServiceDialog.Edit | src/components/add-service-dialog.tsx:78-92 | the typed values replace the form's |
| ServiceDialogs.AddServiceDialog.Submit | src/components/add-service-dialog.tsx:53-61 | invalid: issues only; valid: one new service handed over, form cleared, dialog closed |
| ClientDialog.ValidateClient | src/components/edit-client-dialog.tsx:21-27 | accepts iff both names are non-empty and the email passes the email check; each failing field reports its message |
| ClientDialog.MergeClient | src/components/edit-client-dialog.tsx:54 | id and owner stay; names and email replaced; phone and address replaced when supplied |
| ClientDialog.DraftOf | src/components/edit-client-dialog.tsx:44-51 | the form opens on the client's names and email, and on its phone and address, or "" for each one the client lacks |
| ClientDialog.UnchangedEditSavesClient | src/components/edit-client-dialog.tsx:44-54 | a valid client saved as opened validates; it comes back unchanged when it has a phone and an address, and with "" for each one it lacked |
| ClientDialog.EditedClientReopens | src/components/edit-client-dialog.tsx:49-54 | reopening the form on a saved client shows the submitted fields |
| ClientDialog.EditClientDialog.constructor | src/components/edit-client-dialog.tsx:44-47 | the form opens on the client's fields, a missing phone or address as "" |
| ClientDialog.EditClientDialog.ReceiveClient | src/components/edit-client-dialog.tsx:49-51 | a new client resets the values the same way |
| ClientDialog.EditClientDialog.Edit | src/components/edit-client-dialog.tsx:75-101 | the typed values replace the form's |
| ClientDialog.EditClientDialog.Submit | src/components/edit-client-dialog.tsx:53-60 | invalid: issues only; valid: the merged client is handed over and the dialog asks to close |
| ClientDialog.EditClientDialog.Cancel | src/components/edit-client-dialog.tsx:104 | asks to close and saves nothing |
| ClientDialog.SaveUnchanged | src/components/edit-client-dialog.tsx:44-60 | opening a valid client and saving at once hands over that client, with "" for a missing phone or address |

## Left out

- The browser branch of `stripHtml` (`DOMParser` and `textContent`, src/lib/utils.ts:28-29) is not modelled. Only the regex branch used without a window is. The line-item row's own `stripHtml`, which always uses `DOMParser`, is the parameter `toPlain`.
- The "no window" early returns of the session provider are not modelled. The provider always runs in a browser.
- Effects and handlers run as atomic steps. Asynchronous interleavings are not modelled: a second message arriving during `signInWithCustomToken`, or effects re-running mid-handshake.
- Firebase sign-in outcomes are parameters. So are `JSON.parse` and `JSON.stringify`, the `FileReader` result, and the schema library's URL and e-mail checks. Their own code is not part of this model.
- `console.error` and the toasts are not modelled. `useEstimatorSession` throwing outside a provider is not modelled either, since it is React context plumbing.
- `postEstimatorMessage` is modelled only as its endpoint. The fetch, headers, status check and JSON response are network I/O.
- `appConfig.estimatorOrigin` is not modelled: it reads `window.location`. Neither are `cn` and `formatCurrency`, which are styling and `Intl` number formatting.
- The seed clients, services, parts and projects of src/lib/data.ts are not modelled. The seed clients carry a `name` field that the `Client` type does not have, so the seed estimates and invoices take their four clients as a parameter.
- Floating point is not modelled: money and rates are exact reals. For example, `estimate2Subtotal * 0.08` is exactly 550.4 here, and `8.25 / 100` is exactly 0.0825.
- The schema library's parsing is reduced to its outcome. A typed numeric field is `None` when `parseFloat` gives NaN, and the library's fixed NaN message is reported for it. A number input never typed into still holds the record's number; `z.string().parse` refuses it and the whole parse stops with the library's single "Expected string, received number" issue at the root, which no field displays. A plain registered text input with nothing to show holds "", and that "" is saved; only the rich-text description, which the editor drives, stays absent (`None`), and the merge keeps the record's value for it.
- Submit (EditTaxDialog.Submit, AddTaxDialog.Submit, EditPartDialog.Submit, AddPartDialog.Submit, EditServiceDialog.Submit, AddServiceDialog.Submit, EditClientDialog.Submit): the browser's own constraint validation is not modelled. None of the forms sets `noValidate`, so the browser refuses to fire the submit, before the schema runs, in these cases: a price or cost that is not a multiple of its `step` of 0.01 (add-part-dialog.tsx:91-96, edit-part-dialog.tsx:133-138, add-service-dialog.tsx:87, edit-service-dialog.tsx:128); a rate that is not a multiple of 0.001 (add-tax-dialog.tsx:86, edit-tax-dialog.tsx:86); an email the browser's `type="email"` check rejects (edit-client-dialog.tsx:90). In those cases the model runs the schema and may save: a price of 10.005 is added, where the browser adds nothing.
- EditTaxDialog.Submit: submitting while Save is disabled does nothing. An implicit submit by Enter with an unchanged form is blocked too.
- The dialogs' rendering, the rich-text editor and the image preview are not modelled.
- The user menu's sign-out (`auth.signOut()`) is not modelled: it is a call into Firebase.
- Preview, Row.ShowsToggle, GetInitials: JavaScript's `length`, `slice` and `[0]` count UTF-16 code units, while the model counts characters. Text with characters outside the Basic Multilingual Plane (emoji) can therefore differ in the 150-character cutoff, in whether the toggle shows, and in initials, where JavaScript can take half of a surrogate pair.
- The Checkbox's `indeterminate` state is treated as truthy, as JavaScript does.

=== FILE: add_from_library.dfy ===
/** The "Add from Library" picker: services and parts are ticked into one
    shared selection list, which the Add button hands over and then clears. */
module AddFromLibrary {
  import opened Types

  /** A checkbox's new state; `Indeterminate` is truthy, so it selects like `Checked`. */
  datatype CheckedState = Checked | Unchecked | Indeterminate

  /** `items.filter((i) => i.id !== id)`. */
  function WithoutId(items: seq<Item>, id: string): (r: seq<Item>)
    ensures |r| <= |items|
    ensures forall i :: 0 <= i < |r| ==> r[i].id != id
    decreases |items|
  {
    if items == [] then []
    else if items[0].id == id then WithoutId(items[1..], id)
    else [items[0]] + WithoutId(items[1..], id)
  }

  /** Filtering drops every entry with the id and keeps every other one; order is
      kept too, as `WithoutIdAppend` shows. */
  lemma {:induction false} WithoutIdSpec(items: seq<Item>, id: string)
    ensures forall i :: 0 <= i < |WithoutId(items, id)| ==> WithoutId(items, id)[i].id != id
    ensures forall x :: x in WithoutId(items, id) <==> x in items && x.id != id
    ensures |WithoutId(items, id)| <= |items|
    ensures (forall i :: 0 <= i < |items| ==> items[i].id != id) ==> WithoutId(items, id) == items
    decreases |items|
  {
    if items != [] {
      WithoutIdSpec(items[1..], id);
      assert items == [items[0]] + items[1..];
    }
  }

  /** Filtering commutes with appending: an entry appended after the filter stays last. */
  lemma {:induction false} WithoutIdAppend(a: seq<Item>, b: seq<Item>, id: string)
    ensures WithoutId(a + b, id) == WithoutId(a, id) + WithoutId(b, id)
    decreases |a|
  {
    if a == [] {
      assert a + b == b;
    } else {
      assert (a + b)[1..] == a[1..] + b;
      WithoutIdAppend(a[1..], b, id);
    }
  }

  /** `selectedItems.some((i) => i.id === id)`. */
  function SomeHasId(items: seq<Item>, id: string): (r: bool)
    ensures r <==> exists i :: 0 <= i < |items| && items[i].id == id
    decreases |items|
  {
    if items == [] then false
    else items[0].id == id || SomeHasId(items[1..], id)
  }

  /** Decimal text of a count, as a template literal prints it. */
  function DecimalText(n: nat): (r: string)
    ensures |r| >= 1
    ensures forall i :: 0 <= i < |r| ==> '0' <= r[i] <= '9'
    decreases n
  {
    var digit := ['0' + (n % 10) as char];
    if n < 10 then digit else DecimalText(n / 10) + digit
  }

  function DecimalValue(s: string): int
    decreases |s|
  {
    if s == [] then 0 else DecimalValue(s[..|s| - 1]) * 10 + (s[|s| - 1] as int - '0' as int)
  }

  /** The printed count reads back as the count. */
  lemma {:induction false} DecimalTextRoundTrip(n: nat)
    ensures DecimalValue(DecimalText(n)) == n
    decreases n
  {
    var digit := ['0' + (n % 10) as char];
    if n < 10 {
      assert DecimalText(n)[..0] == [];
    } else {
      DecimalTextRoundTrip(n / 10);
      var r := DecimalText(n / 10) + digit;
      assert r[..|r| - 1] == DecimalText(n / 10);
    }
  }

  class LibraryDialog {
    var open: bool
    var selectedItems: seq<Item>
    /** Every list handed to `onAddItems`, oldest first. */
    var handedOff: seq<seq<Item>>

    constructor ()
      ensures !open && selectedItems == [] && handedOff == []
    {
      open := false;
      selectedItems := [];
      handedOff := [];
    }

    /** `setOpen`, from the trigger button, Cancel or the dialog's own close. */
    method SetOpen(value: bool)
      modifies this`open
      ensures open == value
    {
      open := value;
    }

    /** `isItemSelected`: some entry of the selection has this id. */
    function IsItemSelected(itemId: string): (r: bool)
      reads this
      ensures r <==> exists i :: 0 <= i < |selectedItems| && selectedItems[i].id == itemId
    {
      SomeHasId(selectedItems, itemId)
    }

    /** `handleSelect`: a truthy state appends the item, even a second time;
        `Unchecked` removes every entry with its id. */
    method HandleSelect(item: Item, isSelected: CheckedState)
      modifies this`selectedItems
      ensures isSelected != Unchecked ==> selectedItems == old(selectedItems) + [item]
      ensures isSelected == Unchecked ==> selectedItems == WithoutId(old(selectedItems), item.id)
      ensures IsItemSelected(item.id) <==> isSelected != Unchecked
    {
      if isSelected != Unchecked {
        selectedItems := selectedItems + [item];
        assert selectedItems[|selectedItems| - 1] == item;
      } else {
        WithoutIdSpec(selectedItems, item.id);
        selectedItems := WithoutId(selectedItems, item.id);
      }
    }

    /** `handleAddClick`: hands over exactly the current selection, then empties it
        and closes the dialog. */
    method HandleAddClick() returns (added: seq<Item>)
      modifies this`selectedItems, this`open, this`handedOff
      ensures added == old(selectedItems)
      ensures handedOff == old(handedOff) + [added]
      ensures selectedItems == [] && !open
    {
      added := selectedItems;
      handedOff := handedOff + [added];
      selectedItems := [];
      open := false;
    }

    /** The Add button is disabled exactly when nothing is selected. */
    function AddDisabled(): (r: bool)
      reads this
      ensures r <==> forall id :: !IsItemSelected(id)
    {
      assert selectedItems != [] ==> IsItemSelected(selectedItems[0].id);
      |selectedItems| == 0
    }

    /** The Add button's text: "Add " then the selection's length in parentheses when non-empty. */
    function AddLabel(): (r: string)
      reads this
      ensures selectedItems == [] ==> r == "Add "
      ensures selectedItems != [] ==>
        |r| >= 6 && r[..5] == "Add (" && r[|r| - 1] == ')' && DecimalValue(r[5..|r| - 1]) == |selectedItems|
    {
      var count := if |selectedItems| > 0 then "(" + DecimalText(|selectedItems|) + ")" else "";
      DecimalTextRoundTrip(|selectedItems|);
      var r := "Add " + count;
      assert selectedItems != [] ==> r[5..|r| - 1] == DecimalText(|selectedItems|);
      r
    }
  }
}

=== FILE: client_dialog.dfy ===
/** The edit-client dialog: the client schema and the merge that saves an edit. */
module ClientDialog {
  import opened Wrappers
  import opened Types
  import opened Forms

  const FirstNameRequired := "First name is required"
  const LastNameRequired := "Last name is required"
  const EmailMessage := "Invalid email address"

  datatype ClientDraft = ClientDraft(
    firstName: string,
    lastName: string,
    email: string,
    phone: Option<string>,
    address: Option<string>)

  /** `clientSchema`: both names non-empty and an email address by `isEmail`
      (the schema library's email check, which is not part of this model). */
  function ValidateClient(d: ClientDraft, isEmail: string -> bool): (r: Result<ClientDraft, seq<Issue>>)
    ensures r.Ok? <==> d.firstName != "" && d.lastName != "" && isEmail(d.email)
    ensures r.Ok? ==> r.value == d
    ensures r.Err? ==>
      && (Issue("firstName", FirstNameRequired) in r.error <==> d.firstName == "")
      && (Issue("lastName", LastNameRequired) in r.error <==> d.lastName == "")
      && (Issue("email", EmailMessage) in r.error <==> !isEmail(d.email))
  {
    var issues := RequiredText("firstName", d.firstName, FirstNameRequired)
      + RequiredText("lastName", d.lastName, LastNameRequired)
      + (if isEmail(d.email) then [] else [Issue("email", EmailMessage)]);
    if issues == [] then Ok(d) else Err(issues)
  }

  /** `{...client, ...data}`: the id and the owner stay; the form's fields replace the client's. */
  function MergeClient(client: Client, v: ClientDraft): (r: Client)
    ensures r.id == client.id && r.userId == client.userId
    ensures r.firstName == v.firstName && r.lastName == v.lastName && r.email == v.email
    ensures r.phone == Override(client.phone, v.phone)
    ensures r.address == Override(client.address, v.address)
  {
    Client(client.id, v.firstName, v.lastName, v.email,
           Override(client.phone, v.phone), Override(client.address, v.address), client.userId)
  }

  /** What the edit form opens on: the client's own fields. Phone and address are
      plain registered inputs, which hold "" for a client without them. */
  function DraftOf(client: Client): (r: ClientDraft)
    ensures r.firstName == client.firstName && r.lastName == client.lastName && r.email == client.email
    ensures client.phone.Some? ==> r.phone == client.phone
    ensures client.phone.None? ==> r.phone == Some("")
    ensures client.address.Some? ==> r.address == client.address
    ensures client.address.None? ==> r.address == Some("")
  {
    ClientDraft(client.firstName, client.lastName, client.email,
                RegisteredText(client.phone), RegisteredText(client.address))
  }

  /** Saving a valid client unchanged gives back the same client, except that a
      missing phone or address is saved as the empty text. */
  lemma UnchangedEditSavesClient(client: Client, isEmail: string -> bool)
    requires client.firstName != "" && client.lastName != "" && isEmail(client.email)
    ensures ValidateClient(DraftOf(client), isEmail).Ok?
    ensures client.phone.Some? && client.address.Some? ==>
      MergeClient(client, ValidateClient(DraftOf(client), isEmail).value) == client
    ensures MergeClient(client, ValidateClient(DraftOf(client), isEmail).value)
      == client.(phone := RegisteredText(client.phone), address := RegisteredText(client.address))
  {
  }

  /** Saving an edit and reopening the form on the result shows the submitted
      fields again, wherever the form supplied them. */
  lemma EditedClientReopens(client: Client, v: ClientDraft)
    requires v.phone.Some? && v.address.Some?
    ensures DraftOf(MergeClient(client, v)) == v
  {
  }

  /** `EditClientDialog`. */
  class EditClientDialog {
    var client: Client
    var values: ClientDraft
    var updates: seq<Client>
    var closeRequested: bool

    constructor (client: Client)
      ensures this.client == client && values == DraftOf(client) && updates == [] && !closeRequested
    {
      this.client := client;
      values := DraftOf(client);
      updates := [];
      closeRequested := false;
    }

    /** The reset effect when a different client is passed in. */
    method ReceiveClient(c: Client)
      modifies this`client, this`values
      ensures client == c && values == DraftOf(c)
    {
      client := c;
      values := DraftOf(c);
    }

    method Edit(d: ClientDraft)
      modifies this`values
      ensures values == d
    {
      values := d;
    }

    /** A valid submission hands the merged client to `onUpdateClient` and asks to close. */
    method Submit(isEmail: string -> bool) returns (issues: seq<Issue>)
      modifies this`updates, this`closeRequested
      ensures ValidateClient(values, isEmail).Err? ==>
        issues == ValidateClient(values, isEmail).error && updates == old(updates)
        && closeRequested == old(closeRequested)
      ensures ValidateClient(values, isEmail).Ok? ==>
        issues == [] && updates == old(updates) + [MergeClient(client, values)] && closeRequested
    {
      var checked := ValidateClient(values, isEmail);
      if checked.Err? {
        issues := checked.error;
        return;
      }
      issues := [];
      updates := updates + [MergeClient(client, checked.value)];
      closeRequested := true;
    }

    /** Cancel only asks to close; nothing is saved. */
    method Cancel()
      modifies this`closeRequested
      ensures closeRequested
    {
      closeRequested := true;
    }
  }

  /** Opening a valid client and saving at once hands back the client, with the
      empty text for a missing phone or address. */
  method SaveUnchanged(client: Client, isEmail: string -> bool) returns (saved: seq<Client>)
    requires client.firstName != "" && client.lastName != "" && isEmail(client.email)
    ensures client.phone.Some? && client.address.Some? ==> saved == [client]
    ensures client.phone.None? ==> |saved| == 1 && saved[0].phone == Some("")
    ensures client.address.None? ==> |saved| == 1 && saved[0].address == Some("")
  {
    var dialog := new EditClientDialog(client);
    UnchangedEditSavesClient(client, isEmail);
    var _ := dialog.Submit(isEmail);
    saved := dialog.updates;
  }
}

=== FILE: config.dfy ===
/** The estimator's configuration getters: origins and base URLs read from the
    environment with fallbacks, and the anonymous sign-in switch. The process
    environment is the map `env`; an unset variable is a missing key. */
module Config {
  import opened Wrappers

  type Env = map<string, string>

  const AppOriginVar := "NEXT_PUBLIC_WEBE_APP_ORIGIN"
  const FallbackOriginVar := "NEXT_PUBLIC_FALLBACK_WEBE_ORIGIN"
  const ApiBaseUrlVar := "NEXT_PUBLIC_WEBE_API_BASE_URL"
  const FallbackApiBaseUrlVar := "NEXT_PUBLIC_FALLBACK_WEBE_API_BASE_URL"
  const AllowAnonFallbackVar := "NEXT_PUBLIC_ALLOW_ANON_FALLBACK"
  const BuiltInOrigin := "https://app.webe.ws"

  function Lookup(env: Env, key: string): Option<string> {
    if key in env then Some(env[key]) else None
  }

  /** Removes one trailing '/', if there is one. */
  function StripTrailingSlash(value: string): (r: string)
    ensures value == [] ==> r == []
    ensures value != [] && value[|value| - 1] == '/' ==> |r| == |value| - 1 && r + "/" == value
    ensures (value == [] || value[|value| - 1] != '/') ==> r == value
  {
    if value == [] then value
    else if value[|value| - 1] == '/' then value[..|value| - 1]
    else value
  }

  /** Appending a slash and stripping it gives back the original text. */
  lemma StripAppendedSlash(value: string)
    ensures StripTrailingSlash(value + "/") == value
  {
    assert (value + "/")[..|value|] == value;
  }

  /** Only one slash goes: "a//" becomes "a/". */
  lemma StripOnlyOneSlash()
    ensures StripTrailingSlash("a//") == "a/"
  {
    assert "a//"[..2] == "a/";
  }

  /** `DEFAULT_MAIN_APP_ORIGIN`: the fallback origin variable, else the built-in origin. */
  function DefaultMainAppOrigin(env: Env): (r: string)
    ensures r != ""
    ensures Truthy(Lookup(env, FallbackOriginVar)) ==> r == env[FallbackOriginVar]
    ensures !Truthy(Lookup(env, FallbackOriginVar)) ==> r == BuiltInOrigin
  {
    OrElse(Lookup(env, FallbackOriginVar), Some(BuiltInOrigin)).value
  }

  /** `DEFAULT_API_BASE_URL`: the fallback API variable, else the default main origin. */
  function DefaultApiBaseUrl(env: Env): (r: string)
    ensures r != ""
    ensures Truthy(Lookup(env, FallbackApiBaseUrlVar)) ==> r == env[FallbackApiBaseUrlVar]
    ensures !Truthy(Lookup(env, FallbackApiBaseUrlVar)) ==> r == DefaultMainAppOrigin(env)
  {
    OrElse(Lookup(env, FallbackApiBaseUrlVar), Some(DefaultMainAppOrigin(env))).value
  }

  /** `appConfig.mainAppOrigin`: the first non-empty of the origin variable, the
      fallback origin variable and the built-in origin, with one trailing slash removed. */
  function MainAppOrigin(env: Env): (r: string)
    ensures Truthy(Lookup(env, AppOriginVar)) ==> r == StripTrailingSlash(env[AppOriginVar])
    ensures !Truthy(Lookup(env, AppOriginVar)) && Truthy(Lookup(env, FallbackOriginVar)) ==>
      r == StripTrailingSlash(env[FallbackOriginVar])
    ensures !Truthy(Lookup(env, AppOriginVar)) && !Truthy(Lookup(env, FallbackOriginVar)) ==>
      r == BuiltInOrigin
  {
    var origin := OrElse(Lookup(env, AppOriginVar), Some(DefaultMainAppOrigin(env))).value;
    StripTrailingSlash(origin)
  }

  /** `appConfig.apiBaseUrl`: the first non-empty of the API variable, the fallback
      API variable and the default main origin (which ignores the origin variable),
      with one trailing slash removed. */
  function ApiBaseUrl(env: Env): (r: string)
    ensures Truthy(Lookup(env, ApiBaseUrlVar)) ==> r == StripTrailingSlash(env[ApiBaseUrlVar])
    ensures !Truthy(Lookup(env, ApiBaseUrlVar)) && Truthy(Lookup(env, FallbackApiBaseUrlVar)) ==>
      r == StripTrailingSlash(env[FallbackApiBaseUrlVar])
    ensures !Truthy(Lookup(env, ApiBaseUrlVar)) && !Truthy(Lookup(env, FallbackApiBaseUrlVar)) ==>
      r == StripTrailingSlash(DefaultMainAppOrigin(env))
  {
    var baseUrl := OrElse(Lookup(env, ApiBaseUrlVar), Some(DefaultApiBaseUrl(env))).value;
    StripTrailingSlash(baseUrl)
  }

  /** With none of the four variables set, both getters give the built-in origin. */
  lemma EmptyEnvironmentDefaults()
    ensures MainAppOrigin(map[]) == BuiltInOrigin
    ensures ApiBaseUrl(map[]) == BuiltInOrigin
  {
  }

  /** `appConfig.allowAnonymousFallback`: on exactly when the variable is the text "true". */
  function AllowAnonymousFallback(env: Env): (r: bool)
    ensures r <==> AllowAnonFallbackVar in env && env[AllowAnonFallbackVar] == "true"
  {
    Lookup(env, AllowAnonFallbackVar) == Some("true")
  }
}

=== FILE: estimator_session.dfy ===
/** The host-session handshake. Opened by a host window, the estimator posts a
    ready message to the host origin and waits for an auth message carrying a
    custom token; signing in with that token yields the session, which is kept
    in session storage. Opened standalone, it may sign in anonymously once.

    Each effect and handler is one atomic step. The outcome of a sign-in is a
    parameter, JSON parsing and serialisation are function parameters, and
    session storage is a map field. */
module EstimatorSession {
  import opened Wrappers
  import Config

  const StorageKey := "webe-estimator-session"
  const AuthMessageType := "webe-estimator-auth"
  const ReadyMessageType := "webe-estimator-ready"
  const SignInFailedMessage := "Unable to authenticate with the WeBe session."

  datatype Status = Idle | Waiting | Authenticating | Authenticated | Standalone | Error

  /** A JSON value the estimator carries along without looking inside. */
  datatype Blob = Blob(json: string)

  /** The host's page context; only its `id` is ever read. */
  datatype PageContext = PageContext(id: Option<string>, rest: Blob)

  datatype SessionPayload = SessionPayload(
    sessionId: string,
    pageId: Option<string>,
    userId: string,
    expiresAt: string,
    issuedAt: string,
    page: Option<PageContext>,
    user: Option<Blob>)

  /** The data of a message from the host; `kind` is its `type` field. */
  datatype AuthMessage = AuthMessage(
    kind: string,
    customToken: string,
    sessionId: string,
    pageId: Option<string>,
    userId: string,
    expiresAt: string,
    issuedAt: string,
    page: Option<PageContext>,
    user: Option<Blob>)

  /** A window message; `data` is None when it is absent or not an object. */
  datatype MessageEvent = MessageEvent(origin: string, data: Option<AuthMessage>)

  /** A message posted to the opener window and the origin it is addressed to. */
  datatype PostedMessage = PostedMessage(kind: string, targetOrigin: string)

  /** `loadStoredSession`: the stored copy, if present, non-empty, parseable and
      carrying a non-empty session id. */
  function LoadStoredSession(storage: map<string, string>, parse: string -> Option<SessionPayload>): (r: Option<SessionPayload>)
    ensures r.Some? <==>
      && StorageKey in storage && storage[StorageKey] != ""
      && parse(storage[StorageKey]).Some? && parse(storage[StorageKey]).value.sessionId != ""
    ensures r.Some? ==> r == parse(storage[StorageKey]) && r.value.sessionId != ""
  {
    if StorageKey !in storage || storage[StorageKey] == "" then None
    else
      match parse(storage[StorageKey])
      case None => None
      case Some(parsed) => if parsed.sessionId == "" then None else Some(parsed)
  }

  /** A session persisted by a successful handshake is found again on reload,
      provided the serialiser and the parser agree on it. */
  lemma PersistedSessionReloads(storage: map<string, string>, payload: SessionPayload, raw: string,
                                parse: string -> Option<SessionPayload>)
    requires raw != "" && parse(raw) == Some(payload) && payload.sessionId != ""
    ensures LoadStoredSession(storage[StorageKey := raw], parse) == Some(payload)
  {
  }

  /** Whether `handleMessage` acts on an event: it must come from the host origin
      and carry the auth message type. */
  function Accepts(mainAppOrigin: string, event: MessageEvent): (r: bool)
    ensures r ==> event.origin == mainAppOrigin
    ensures r <==> event.origin == mainAppOrigin && event.data.Some? && event.data.value.kind == AuthMessageType
  {
    event.origin == mainAppOrigin && event.data.Some? && event.data.value.kind == AuthMessageType
  }

  /** The session built from an accepted message: every field but the custom token. */
  function ToSessionPayload(m: AuthMessage): (r: SessionPayload)
    ensures r.sessionId == m.sessionId && r.pageId == m.pageId && r.userId == m.userId
    ensures r.expiresAt == m.expiresAt && r.issuedAt == m.issuedAt && r.page == m.page && r.user == m.user
  {
    SessionPayload(m.sessionId, m.pageId, m.userId, m.expiresAt, m.issuedAt, m.page, m.user)
  }

  /** The custom token never reaches the session: messages that differ only in
      their token yield the same session. */
  lemma TokenNotKept(m: AuthMessage, token: string)
    ensures ToSessionPayload(m.(customToken := token)) == ToSessionPayload(m)
  {
  }

  /** `EstimatorSessionProvider`: its state, its two once-only guards, the
      listener it installs, session storage, and a record of its effects on the
      outside world (messages posted to the opener, anonymous sign-ins started). */
  class SessionProvider {
    const env: Config.Env
    const mainAppOrigin: string
    var status: Status
    var session: Option<SessionPayload>
    var error: Option<string>
    var hasSentReadyMessage: bool
    var hasAttemptedAnonSignIn: bool
    var listening: bool
    var storage: map<string, string>
    var posted: seq<PostedMessage>
    var anonSignIns: nat

    /** The guards record exactly the effects that happened: at most one ready
        message, to the host origin, and at most one anonymous sign-in. */
    ghost predicate Valid()
      reads this
    {
      && mainAppOrigin == Config.MainAppOrigin(env)
      && posted == (if hasSentReadyMessage then [PostedMessage(ReadyMessageType, mainAppOrigin)] else [])
      && anonSignIns == (if hasAttemptedAnonSignIn then 1 else 0)
    }

    /** First render: idle, no session, no error, guards down; the host origin is
        read once from the environment. */
    constructor (env: Config.Env, storage: map<string, string>)
      ensures Valid()
      ensures this.env == env && this.storage == storage
      ensures status == Idle && session == None && error == None
      ensures !hasSentReadyMessage && !hasAttemptedAnonSignIn && !listening
      ensures posted == [] && anonSignIns == 0
    {
      this.env := env;
      this.mainAppOrigin := Config.MainAppOrigin(env);
      this.storage := storage;
      status := Idle;
      session := None;
      error := None;
      hasSentReadyMessage := false;
      hasAttemptedAnonSignIn := false;
      listening := false;
      posted := [];
      anonSignIns := 0;
    }

    /** The first mount effect: a stored session is restored and marked authenticated. */
    method SeedFromStorage(parse: string -> Option<SessionPayload>)
      requires Valid()
      modifies this`session, this`status
      ensures Valid()
      ensures LoadStoredSession(storage, parse).Some? ==>
        session == LoadStoredSession(storage, parse) && status == Authenticated
      ensures LoadStoredSession(storage, parse).None? ==>
        session == old(session) && status == old(status)
    {
      var stored := LoadStoredSession(storage, parse);
      if stored.Some? {
        session := stored;
        status := Authenticated;
      }
    }

    /** `sendReady`: posts the ready message to the host origin, once in the provider's life. */
    method SendReady()
      requires Valid()
      modifies this`hasSentReadyMessage, this`posted
      ensures Valid() && hasSentReadyMessage
      ensures posted == [PostedMessage(ReadyMessageType, mainAppOrigin)]
      ensures old(hasSentReadyMessage) ==> posted == old(posted)
    {
      if hasSentReadyMessage {
        return;
      }
      hasSentReadyMessage := true;
      posted := posted + [PostedMessage(ReadyMessageType, mainAppOrigin)];
    }

    /** The opener effect, run on mount and again whenever the user-loading flag
        changes. Without an opener: standalone, and one anonymous sign-in when the
        fallback is allowed and user loading has finished. With an opener:
        waiting, the ready message, and the message listener installed. */
    method RunOpenerEffect(hasOpener: bool, isUserLoading: bool)
      requires Valid()
      modifies this`status, this`hasSentReadyMessage, this`hasAttemptedAnonSignIn,
               this`listening, this`posted, this`anonSignIns
      ensures Valid()
      ensures listening == hasOpener
      ensures status == (if hasOpener then Waiting else Standalone)
      ensures hasOpener ==> hasSentReadyMessage && hasAttemptedAnonSignIn == old(hasAttemptedAnonSignIn)
      ensures !hasOpener ==> hasSentReadyMessage == old(hasSentReadyMessage)
      ensures !hasOpener ==> (hasAttemptedAnonSignIn <==>
        old(hasAttemptedAnonSignIn) || (Config.AllowAnonymousFallback(env) && !isUserLoading))
      ensures anonSignIns <= 1 && |posted| <= 1
    {
      if !hasOpener {
        listening := false;
        status := Standalone;
        if Config.AllowAnonymousFallback(env) && !isUserLoading && !hasAttemptedAnonSignIn {
          hasAttemptedAnonSignIn := true;
          anonSignIns := anonSignIns + 1;
        }
        return;
      }
      status := Waiting;
      SendReady();
      listening := true;
    }

    /** Mount: the storage effect, then the opener effect. Both set the status,
        so a restored session ends up with status waiting or standalone rather
        than authenticated. */
    method Mount(parse: string -> Option<SessionPayload>, hasOpener: bool, isUserLoading: bool)
      requires Valid()
      modifies this
      ensures Valid()
      ensures session == (if LoadStoredSession(storage, parse).Some? then LoadStoredSession(storage, parse) else old(session))
      ensures status == (if hasOpener then Waiting else Standalone)
      ensures storage == old(storage) && error == old(error) && listening == hasOpener
    {
      SeedFromStorage(parse);
      RunOpenerEffect(hasOpener, isUserLoading);
    }

    /** `handleMessage`: ignores anything not from the host origin or not of the
        auth type; otherwise signs in with the token and either stores the session
        (without the token) or reports the fixed error and keeps the old session. */
    method HandleMessage(event: MessageEvent, signInSucceeds: bool, stringify: SessionPayload -> string)
      requires Valid()
      modifies this`status, this`error, this`session, this`storage
      ensures Valid()
      ensures !(listening && Accepts(mainAppOrigin, event)) ==>
        status == old(status) && error == old(error) && session == old(session) && storage == old(storage)
      ensures listening && Accepts(mainAppOrigin, event) && signInSucceeds ==>
        var payload := ToSessionPayload(event.data.value);
        && session == Some(payload) && status == Authenticated && error == None
        && storage == old(storage)[StorageKey := stringify(payload)]
      ensures listening && Accepts(mainAppOrigin, event) && !signInSucceeds ==>
        status == Error && error == Some(SignInFailedMessage)
        && session == old(session) && storage == old(storage)
    {
      if !listening {
        return;
      }
      if event.origin != mainAppOrigin {
        return;
      }
      if event.data.None? || event.data.value.kind != AuthMessageType {
        return;
      }
      var data := event.data.value;
      status := Authenticating;
      error := None;
      if signInSucceeds {
        var payload := ToSessionPayload(data);
        session := Some(payload);
        status := Authenticated;
        storage := storage[StorageKey := stringify(payload)];
      } else {
        error := Some(SignInFailedMessage);
        status := Error;
      }
    }

    /** `resetSession`: forgets the session here and in storage; the status falls
        back to standalone when anonymous fallback is allowed, else idle. The error
        and the once-only guards are left as they were. */
    method ResetSession()
      requires Valid()
      modifies this`session, this`status, this`storage
      ensures Valid()
      ensures session == None && StorageKey !in storage
      ensures storage == old(storage) - {StorageKey}
      ensures status == (if Config.AllowAnonymousFallback(env) then Standalone else Idle)
    {
      session := None;
      status := if Config.AllowAnonymousFallback(env) then Standalone else Idle;
      storage := storage - {StorageKey};
    }
  }

  /** After a successful handshake, a reload restores the same session. */
  method HandshakeThenReload(env: Config.Env, host: AuthMessage,
                             parse: string -> Option<SessionPayload>, stringify: SessionPayload -> string)
    returns (restored: Option<SessionPayload>)
    requires host.kind == AuthMessageType && host.sessionId != ""
    requires stringify(ToSessionPayload(host)) != ""
    requires parse(stringify(ToSessionPayload(host))) == Some(ToSessionPayload(host))
    ensures restored == Some(ToSessionPayload(host))
  {
    var p := new SessionProvider(env, map[]);
    p.Mount(parse, true, false);
    assert p.status == Waiting && p.listening;
    p.HandleMessage(MessageEvent(p.mainAppOrigin, Some(host)), true, stringify);
    assert p.status == Authenticated;
    var reloaded := new SessionProvider(env, p.storage);
    restored := LoadStoredSession(reloaded.storage, parse);
  }
}

=== FILE: forms.dfy ===
/** The field checks the dialogs' schemas are built from. A numeric field holds
    the parsed number, or None when parsing the typed text gave NaN. A schema
    reports the problem of every failing field, in the order of its fields. */
module Forms {
  import opened Wrappers

  /** A field problem: the field's name and the message shown under it. */
  datatype Issue = Issue(path: string, message: string)

  /** The schema library's own message for a number field that is NaN. */
  const NotANumber := "Expected number, received nan"

  /** `z.string().min(1, message)`. */
  function RequiredText(path: string, value: string, message: string): (r: seq<Issue>)
    ensures r == [] <==> value != ""
    ensures r != [] ==> r == [Issue(path, message)]
  {
    if value == "" then [Issue(path, message)] else []
  }

  /** `z.number().positive(message)` after parsing: strictly above zero. */
  function PositiveNumber(path: string, value: Option<real>, message: string): (r: seq<Issue>)
    ensures r == [] <==> value.Some? && value.value > 0.0
    ensures value.None? ==> r == [Issue(path, NotANumber)]
    ensures value.Some? && value.value <= 0.0 ==> r == [Issue(path, message)]
  {
    if value.None? then [Issue(path, NotANumber)]
    else if value.value > 0.0 then []
    else [Issue(path, message)]
  }

  /** `z.number().min(0, message)` after parsing: zero or above. */
  function NonNegativeNumber(path: string, value: Option<real>, message: string): (r: seq<Issue>)
    ensures r == [] <==> value.Some? && value.value >= 0.0
    ensures value.None? ==> r == [Issue(path, NotANumber)]
    ensures value.Some? && value.value < 0.0 ==> r == [Issue(path, message)]
  {
    if value.None? then [Issue(path, NotANumber)]
    else if value.value >= 0.0 then []
    else [Issue(path, message)]
  }

  /** What a numeric input of an edit form holds: the record's own number while
      the input has not fired a change, or the parsed typed text after it has. */
  datatype NumberInput = Untouched(number: real) | Typed(parsed: Option<real>)

  /** The path of an issue that belongs to no field: no input displays it. */
  const RootPath := ""

  /** The schema library's message when `z.string().parse` meets a number. */
  const NotAString := "Expected string, received number"

  /** The schema's preprocess `parseFloat(z.string().parse(a))` on a field value:
      typed text goes on to the number check, an untouched number makes
      `z.string().parse` throw, which aborts the whole parse. */
  function Preprocess(input: NumberInput): (r: Result<Option<real>, Issue>)
    ensures r.Err? <==> input.Untouched?
    ensures r.Err? ==> r.error == Issue(RootPath, NotAString)
    ensures r.Ok? ==> r.value == input.parsed
  {
    match input
    case Untouched(_) => Err(Issue(RootPath, NotAString))
    case Typed(parsed) => Ok(parsed)
  }

  /** `{...record, ...data}` on an optional field: a value present in the data wins. */
  function Override(original: Option<string>, data: Option<string>): (r: Option<string>)
    ensures data.Some? ==> r == data
    ensures data.None? ==> r == original
  {
    if data.Some? then data else original
  }

  /** What a plain registered text input holds when the form opens: the record's
      text, or, when the record has none, the input's own empty value. */
  function RegisteredText(value: Option<string>): (r: Option<string>)
    ensures r.Some?
    ensures value.Some? ==> r == value
    ensures value.None? ==> r == Some("")
  {
    if value.Some? then value else Some("")
  }

  /** A file picked in an upload control; `dataUrl` is what reading it produces. */
  datatype PickedFile = PickedFile(size: nat, dataUrl: string)

  /** The upload limit of the image controls: 1 MB. */
  const MaxImageBytes: nat := 1024 * 1024
}

=== FILE: html.dfy ===
/** `stripHtml` on the path without a browser DOM: the global replacement of
    `/<[^>]*>?/` by the empty string. A match starts at a '<' and runs to the next
    '>' inclusive, or to the end of the text when no '>' follows. */
module Html {
  import opened Wrappers

  /** Drops the body of a tag just after its '<': everything up to and including
      the first '>', or the whole rest when there is none. */
  function SkipTag(s: string): (r: string)
    ensures |r| <= |s|
    ensures '>' !in s ==> r == []
    decreases |s|
  {
    if s == [] then []
    else if s[0] == '>' then s[1..]
    else SkipTag(s[1..])
  }

  /** What is left after a tag is a suffix of the text. */
  lemma {:induction false} SkipTagSuffix(s: string)
    ensures SkipTag(s) == s[|s| - |SkipTag(s)|..]
    decreases |s|
  {
    if s != [] && s[0] != '>' {
      SkipTagSuffix(s[1..]);
      assert s[1..][|s| - 1 - |SkipTag(s)|..] == s[|s| - |SkipTag(s)|..];
    }
  }

  /** The regex replacement, scanning left to right as the global match does. */
  function StripTags(s: string): (r: string)
    ensures '<' !in r
    ensures |r| <= |s|
    decreases |s|
  {
    if s == [] then []
    else if s[0] == '<' then StripTags(SkipTag(s[1..]))
    else [s[0]] + StripTags(s[1..])
  }

  /** `stripHtml(html)`: `null`, `undefined` and `""` give `""`. */
  function StripHtml(html: Option<string>): (r: string)
    ensures !Truthy(html) ==> r == ""
    ensures Truthy(html) ==> r == StripTags(html.value)
  {
    if !Truthy(html) then "" else StripTags(html.value)
  }

  /** Reference scanner: a two-state machine (outside a tag / inside one) that
      keeps exactly the characters read outside a tag. */
  function Scan(s: string, inTag: bool): string
    decreases |s|
  {
    if s == [] then []
    else if inTag then Scan(s[1..], s[0] != '>')
    else if s[0] == '<' then Scan(s[1..], true)
    else [s[0]] + Scan(s[1..], false)
  }

  lemma {:induction false} ScanInsideTag(s: string)
    ensures Scan(s, true) == Scan(SkipTag(s), false)
    decreases |s|
  {
    if s != [] && s[0] != '>' {
      ScanInsideTag(s[1..]);
    }
  }

  /** The replacement is the two-state scanner started outside a tag. */
  lemma {:induction false} StripTagsIsScan(s: string)
    ensures StripTags(s) == Scan(s, false)
    decreases |s|
  {
    if s != [] {
      if s[0] == '<' {
        ScanInsideTag(s[1..]);
        StripTagsIsScan(SkipTag(s[1..]));
      } else {
        StripTagsIsScan(s[1..]);
      }
    }
  }

  /** Text without a '<' comes back unchanged. */
  lemma {:induction false} StripTagsNoTag(s: string)
    requires '<' !in s
    ensures StripTags(s) == s
    decreases |s|
  {
    if s != [] {
      assert s == [s[0]] + s[1..];
      StripTagsNoTag(s[1..]);
    }
  }

  /** Stripping twice is stripping once. */
  lemma StripTagsIdempotent(s: string)
    ensures StripTags(StripTags(s)) == StripTags(s)
  {
    StripTagsNoTag(StripTags(s));
  }

  /** `sub` can be obtained from `s` by deleting characters. */
  predicate IsSubsequence(sub: string, s: string)
    decreases |s|
  {
    if sub == [] then true
    else if s == [] then false
    else if sub[0] == s[0] then IsSubsequence(sub[1..], s[1..])
    else IsSubsequence(sub, s[1..])
  }

  /** Dropping the first character of the text keeps every subsequence of the rest. */
  lemma {:induction false} SubsequenceWeaken(sub: string, s: string)
    requires s != [] && IsSubsequence(sub, s[1..])
    ensures IsSubsequence(sub, s)
    decreases |s|, 0
  {
    if sub != [] && sub[0] == s[0] {
      SubsequenceDropHead(sub, s[1..]);
    }
  }

  lemma {:induction false} SubsequenceDropHead(sub: string, s: string)
    requires sub != [] && IsSubsequence(sub, s)
    ensures IsSubsequence(sub[1..], s)
    decreases |s|, 1
  {
    if sub[0] == s[0] {
      if sub[1..] != [] {
        SubsequenceWeaken(sub[1..], s);
      }
    } else {
      SubsequenceDropHead(sub, s[1..]);
      if sub[1..] != [] {
        SubsequenceWeaken(sub[1..], s);
      }
    }
  }

  lemma {:induction false} SubsequenceOfSuffix(sub: string, s: string, k: nat)
    requires k <= |s|
    requires IsSubsequence(sub, s[k..])
    ensures IsSubsequence(sub, s)
    decreases k
  {
    if k > 0 {
      assert s[k..] == s[1..][k - 1..];
      SubsequenceOfSuffix(sub, s[1..], k - 1);
      SubsequenceWeaken(sub, s);
    }
  }

  /** The result only deletes characters of the input: it keeps their order and never grows. */
  lemma {:induction false} StripTagsSubsequence(s: string)
    ensures IsSubsequence(StripTags(s), s)
    decreases |s|
  {
    if s != [] {
      if s[0] == '<' {
        var rest := SkipTag(s[1..]);
        StripTagsSubsequence(rest);
        SkipTagSuffix(s[1..]);
        assert rest == s[|s| - |rest|..];
        SubsequenceOfSuffix(StripTags(rest), s, |s| - |rest|);
      } else {
        StripTagsSubsequence(s[1..]);
      }
    }
  }

  /** A tag that closes is removed whole, and stripping resumes right after it. */
  lemma {:induction false} SkipTagClosed(t: string, rest: string)
    requires '>' !in t
    ensures SkipTag(t + ['>'] + rest) == rest
    decreases |t|
  {
    if t != [] {
      assert (t + ['>'] + rest)[1..] == t[1..] + ['>'] + rest;
      SkipTagClosed(t[1..], rest);
    }
  }

  /** A '<' followed by a closed tag is removed, and stripping resumes after the '>'. */
  lemma StripClosedTag(t: string, rest: string)
    requires '>' !in t
    ensures StripTags(['<'] + t + ['>'] + rest) == StripTags(rest)
  {
    var s := ['<'] + t + ['>'] + rest;
    assert s[0] == '<';
    assert s[1..] == t + ['>'] + rest;
    SkipTagClosed(t, rest);
  }

  /** Text wrapped in an opening and a closing tag strips to the text. */
  lemma StripWrapped(open: string, body: string, close: string)
    requires '>' !in open && '>' !in close && '<' !in body
    ensures StripTags(['<'] + open + ['>'] + body + ['<'] + close + ['>']) == body
  {
    var closing := ['<'] + close + ['>'];
    assert StripTags(closing) == [] by {
      StripClosedTag(close, []);
      assert closing + [] == closing;
    }
    assert StripTags(body + closing) == body by {
      StripTagsAppend(body, closing);
      StripTagsNoTag(body);
    }
    var whole := ['<'] + open + ['>'] + body + ['<'] + close + ['>'];
    assert whole == ['<'] + open + ['>'] + (body + closing);
    assert StripTags(whole) == StripTags(body + closing) by {
      StripClosedTag(open, body + closing);
    }
  }

  /** A catalog description wrapped in a paragraph strips to its plain name. */
  lemma StripParagraph()
    ensures StripHtml(Some("<p>" + "Web Design Consultation" + "</p>")) == "Web Design Consultation"
  {
    assert "<p>" == ['<'] + "p" + ['>'];
    assert "</p>" == ['<'] + "/p" + ['>'];
    var body := "Web Design Consultation";
    assert "<p>" + body + "</p>" == ['<'] + "p" + ['>'] + body + ['<'] + "/p" + ['>'];
    StripWrapped("p", body, "/p");
  }

  /** Text free of '<' and '>' in front does not affect how the rest is stripped. */
  lemma {:induction false} StripTagsAppend(a: string, b: string)
    requires '<' !in a
    ensures StripTags(a + b) == StripTags(a) + StripTags(b)
    decreases |a|
  {
    if a != [] {
      assert (a + b)[1..] == a[1..] + b;
      StripTagsAppend(a[1..], b);
    } else {
      assert a + b == b;
    }
  }
}

=== FILE: line_item_row.dfy ===
/** One row of a document's line-item table: a collapsed plain-text preview of
    the description with a Show more / Show less toggle, and the row amount.
    The browser's HTML-to-text projection is the function parameter `toPlain`. */
module LineItemRow {
  import opened Types
  import Money

  const PreviewLength: nat := 150

  /** The description's plain text; an empty description is not parsed at all. */
  function PlainText(description: string, toPlain: string -> string): (r: string)
    ensures description == "" ==> r == ""
  {
    if description != "" then toPlain(description) else ""
  }

  /** A description is long when its plain text exceeds 150 characters, that is
      when cutting it at 150 loses something. */
  function IsLong(plain: string): (r: bool)
    ensures r <==> |plain| >= PreviewLength && plain[..PreviewLength] != plain
  {
    |plain| > PreviewLength
  }

  /** The collapsed text: the first 150 characters and "..." when long, else all of it. */
  function Preview(plain: string): (r: string)
    ensures |r| <= PreviewLength + 3
    ensures IsLong(plain) ==> |r| == PreviewLength + 3 && r[..PreviewLength] == plain[..PreviewLength]
                              && r[PreviewLength..] == "..."
    ensures !IsLong(plain) ==> r == plain
  {
    if IsLong(plain) then plain[..PreviewLength] + "..." else plain
  }

  /** The preview is always a prefix of the plain text, possibly followed by "...". */
  lemma PreviewIsPrefix(plain: string)
    ensures var r := Preview(plain);
      (r <= plain) || (IsLong(plain) && r == plain[..PreviewLength] + "...")
  {
  }

  /** The rendered row: what the description cell shows and the amount cell. */
  class Row {
    const item: LineItem
    const plain: string
    var expanded: bool

    constructor (item: LineItem, toPlain: string -> string)
      ensures this.item == item && plain == PlainText(item.description, toPlain) && !expanded
    {
      this.item := item;
      this.plain := PlainText(item.description, toPlain);
      expanded := false;
    }

    /** The toggle is rendered only for long descriptions. */
    function ShowsToggle(): (r: bool)
      reads this
      ensures r <==> |plain| > 150
    {
      IsLong(plain)
    }

    /** "Show less" while expanded, "Show more" while collapsed. */
    function ToggleLabel(): (r: string)
      reads this
      ensures expanded <==> r == "Show less"
      ensures !expanded <==> r == "Show more"
    {
      if expanded then "Show less" else "Show more"
    }

    /** Collapsed, the preview; expanded, the stored description itself (rich text). */
    function Shown(): (r: string)
      reads this
      ensures !expanded ==> r == Preview(plain) && |r| <= 153
      ensures expanded ==> r == item.description
    {
      if expanded then item.description else Preview(plain)
    }

    /** A click on the toggle flips the expanded flag; with no toggle there is nothing to click. */
    method ClickToggle()
      modifies this`expanded
      ensures expanded == (if ShowsToggle() then !old(expanded) else old(expanded))
    {
      if ShowsToggle() {
        expanded := !expanded;
      }
    }

    /** The amount cell: quantity times price, the same amount the row adds to the
        document's subtotal. */
    function Amount(): (r: real)
      reads this
      ensures r == Money.Subtotal([item])
      ensures item.quantity >= 0.0 && item.price >= 0.0 ==> r >= 0.0
    {
      Money.SubtotalSingleton(item);
      Money.LineAmount(item)
    }
  }
}

=== FILE: main_nav.dfy ===
/** The sidebar navigation: six fixed entries and which of them is highlighted
    for the current path. */
module MainNav {

  datatype NavItem = NavItem(href: string, title: string)

  const DashboardHref := "/dashboard"

  const NavItems: seq<NavItem> := [
    NavItem("/dashboard", "Dashboard"),
    NavItem("/estimates", "Estimates"),
    NavItem("/invoices", "Invoices"),
    NavItem("/clients", "Clients"),
    NavItem("/library", "Library"),
    NavItem("/projects", "WeBe Projects")
  ]

  /** The dashboard is active only on its exact path; every other entry on any
      path that starts with its href. */
  function IsActive(href: string, pathname: string): (r: bool)
    ensures href == DashboardHref ==> (r <==> pathname == href)
    ensures href != DashboardHref ==> (r <==> href <= pathname)
    ensures r ==> href <= pathname
  {
    if href == DashboardHref then pathname == href else href <= pathname
  }

  /** No entry's href is a prefix of another's (so in particular they are distinct). */
  lemma NoHrefIsPrefixOfAnother()
    ensures |NavItems| == 6
    ensures forall i, j :: 0 <= i < |NavItems| && 0 <= j < |NavItems| && i != j ==>
      !(NavItems[i].href <= NavItems[j].href)
  {
    forall i, j | 0 <= i < |NavItems| && 0 <= j < |NavItems| && i != j
      ensures !(NavItems[i].href <= NavItems[j].href)
    {
      var a, b := NavItems[i].href, NavItems[j].href;
      assert a[1] != b[1];
    }
  }

  /** Two prefixes of the same text are prefixes of one another. */
  lemma PrefixesComparable(a: string, b: string, p: string)
    requires a <= p && b <= p && |a| <= |b|
    ensures a <= b
  {
    assert a == p[..|a|] && b == p[..|b|];
    assert b[..|a|] == p[..|a|];
  }

  /** Whatever the path, at most one entry is highlighted. */
  lemma AtMostOneActive(pathname: string)
    ensures forall i, j :: (0 <= i < |NavItems| && 0 <= j < |NavItems|
      && IsActive(NavItems[i].href, pathname) && IsActive(NavItems[j].href, pathname)) ==> i == j
  {
    NoHrefIsPrefixOfAnother();
    forall i, j | 0 <= i < |NavItems| && 0 <= j < |NavItems|
      && IsActive(NavItems[i].href, pathname) && IsActive(NavItems[j].href, pathname)
      ensures i == j
    {
      var a, b := NavItems[i].href, NavItems[j].href;
      if |a| <= |b| {
        PrefixesComparable(a, b, pathname);
      } else {
        PrefixesComparable(b, a, pathname);
      }
    }
  }

  /** A page under the dashboard highlights nothing, while one under estimates
      highlights the estimates entry. */
  lemma SubpageHighlighting()
    ensures !IsActive("/dashboard", "/dashboard/settings")
    ensures IsActive("/estimates", "/estimates/new")
  {
    assert "/estimates" == "/estimates/new"[..10];
  }
}

=== FILE: money.dfy ===
/** Line amounts, the subtotal fold, the flat 8% seed tax and the totals derived from them. */
module Money {
  import opened Types

  /** The tax rate the seed records apply to their subtotals (8%). */
  const SeedTaxRate: real := 0.08

  /** A row's amount: quantity times unit price. */
  function LineAmount(item: LineItem): (r: real)
    ensures item.quantity >= 0.0 && item.price >= 0.0 ==> r >= 0.0
    ensures item.quantity == 1.0 ==> r == item.price
  {
    item.quantity * item.price
  }

  /** Every row has a non-negative quantity and price. */
  predicate NonNegativeRows(items: seq<LineItem>) {
    forall i :: 0 <= i < |items| ==> items[i].quantity >= 0.0 && items[i].price >= 0.0
  }

  /** `items.reduce((sum, item) => sum + item.quantity * item.price, 0)`:
      a left fold that adds the last item's amount to the subtotal of the rest. */
  function Subtotal(items: seq<LineItem>): (r: real)
    ensures items == [] ==> r == 0.0
    ensures NonNegativeRows(items) ==> r >= 0.0
    decreases |items|
  {
    if items == [] then 0.0
    else Subtotal(items[..|items| - 1]) + LineAmount(items[|items| - 1])
  }

  /** Subtotal of a list is the subtotal of its parts. */
  lemma {:induction false} SubtotalAppend(a: seq<LineItem>, b: seq<LineItem>)
    ensures Subtotal(a + b) == Subtotal(a) + Subtotal(b)
    decreases |b|
  {
    if b == [] {
      assert a + b == a;
    } else {
      var b' := b[..|b| - 1];
      assert (a + b)[..|a + b| - 1] == a + b';
      SubtotalAppend(a, b');
    }
  }

  lemma SubtotalSingleton(item: LineItem)
    ensures Subtotal([item]) == LineAmount(item)
  {
    assert [item][..0] == [];
  }

  /** A list is its prefix before `k`, the item at `k` and the suffix after it. */
  lemma SplitAround(items: seq<LineItem>, k: nat)
    requires k < |items|
    ensures items == (items[..k] + [items[k]]) + items[k + 1..]
  {
  }

  /** Taking one item out lowers the subtotal by exactly that item's amount,
      wherever the item sits: the order of the rows does not matter. */
  lemma SubtotalRemove(items: seq<LineItem>, k: nat)
    requires k < |items|
    ensures Subtotal(items) == Subtotal(items[..k] + items[k + 1..]) + LineAmount(items[k])
  {
    var pre, x, post := items[..k], items[k], items[k + 1..];
    SplitAround(items, k);
    SubtotalAppend(pre + [x], post);
    SubtotalAppend(pre, [x]);
    SubtotalSingleton(x);
    SubtotalAppend(pre, post);
  }

  /** The denormalised money fields of an estimate or invoice. */
  datatype Totals = Totals(subtotal: real, tax: real, total: real)

  /** Subtotal, tax at `rate` and their sum, as the seed records compute them. */
  function ComputeTotals(items: seq<LineItem>, rate: real): (t: Totals)
    ensures t.subtotal == Subtotal(items)
    ensures t.total == t.subtotal * (1.0 + rate)
    ensures t.total - t.tax == t.subtotal
  {
    var subtotal := Subtotal(items);
    var tax := subtotal * rate;
    Totals(subtotal, tax, subtotal + tax)
  }

  /** What the records must satisfy: subtotal is the fold, tax is 8% of it, total is their sum. */
  predicate Consistent(items: seq<LineItem>, subtotal: real, tax: real, total: real) {
    ComputeTotals(items, SeedTaxRate) == Totals(subtotal, tax, total)
  }

  predicate EstimateConsistent(e: Estimate) {
    Consistent(e.lineItems, e.subtotal, e.tax, e.total)
  }

  predicate InvoiceConsistent(inv: Invoice) {
    Consistent(inv.lineItems, inv.subtotal, inv.tax, inv.total)
  }

  /** What is still owed on an invoice; overpayment gives a negative balance. */
  function BalanceDue(inv: Invoice): (r: real)
    ensures r == 0.0 <==> inv.amountPaid == inv.total
    ensures inv.amountPaid == 0.0 ==> r == inv.total
  {
    inv.total - inv.amountPaid
  }
}

=== FILE: part_dialogs.dfy ===
/** The add-part and edit-part dialogs: the part schema, the image controls of
    the edit form, and the merge that saves an edit. */
module PartDialogs {
  import opened Wrappers
  import opened Types
  import opened Forms

  const NameRequired := "Part name is required"
  const PriceMessage := "Price must be a positive number"
  const CostMessage := "Cost must be a positive number"

  /** The form's fields; the add form has no image field, so its `imageUrl` stays None. */
  datatype PartDraft = PartDraft(
    name: string,
    description: Option<string>,
    price: Option<real>,
    cost: Option<real>,
    imageUrl: Option<string>)

  /** Values that passed `partSchema`. */
  datatype PartValues = PartValues(
    name: string,
    description: Option<string>,
    price: real,
    cost: real,
    imageUrl: Option<string>)

  /** A part without its id, as handed to the add callback. */
  datatype NewPart = NewPart(name: string, description: Option<string>, price: real, cost: real)

  /** The add form before anything is typed: the name and description inputs hold
      "", so the numbers parse to NaN; the add form has no image input. */
  const EmptyDraft := PartDraft("", Some(""), None, None, None)

  /** `partSchema`: a non-empty name and strictly positive price and cost. */
  function ValidatePart(d: PartDraft): (r: Result<PartValues, seq<Issue>>)
    ensures r.Ok? <==> d.name != "" && d.price.Some? && d.price.value > 0.0 && d.cost.Some? && d.cost.value > 0.0
    ensures r.Ok? ==> r.value == PartValues(d.name, d.description, d.price.value, d.cost.value, d.imageUrl)
    ensures r.Err? ==>
      && (Issue("name", NameRequired) in r.error <==> d.name == "")
      && (Issue("price", PriceMessage) in r.error <==> d.price.Some? && d.price.value <= 0.0)
      && (Issue("cost", CostMessage) in r.error <==> d.cost.Some? && d.cost.value <= 0.0)
      && (Issue("price", NotANumber) in r.error <==> d.price.None?)
      && (Issue("cost", NotANumber) in r.error <==> d.cost.None?)
  {
    var issues := RequiredText("name", d.name, NameRequired)
      + PositiveNumber("price", d.price, PriceMessage)
      + PositiveNumber("cost", d.cost, CostMessage);
    if issues == [] then Ok(PartValues(d.name, d.description, d.price.value, d.cost.value, d.imageUrl))
    else Err(issues)
  }

  /** A zero price or cost is refused, however the rest of the form is filled in. */
  lemma ZeroPriceOrCostRejected(d: PartDraft)
    requires d.price == Some(0.0) || d.cost == Some(0.0)
    ensures ValidatePart(d).Err?
  {
  }

  /** `{...part, ...data}`: the id stays; every field the form supplies replaces the part's. */
  function MergePart(part: Part, v: PartValues): (r: Part)
    ensures r.id == part.id
    ensures r.name == v.name && r.price == v.price && r.cost == v.cost
    ensures r.description == Override(part.description, v.description)
    ensures r.imageUrl == Override(part.imageUrl, v.imageUrl)
  {
    Part(part.id, v.name, Override(part.description, v.description), v.price, v.cost,
         Override(part.imageUrl, v.imageUrl))
  }

  /** The edit form's fields. Price and cost hold the part's numbers until their
      inputs are typed into. */
  datatype EditPartDraft = EditPartDraft(
    name: string,
    description: Option<string>,
    price: NumberInput,
    cost: NumberInput,
    imageUrl: Option<string>)

  /** What the edit form opens on: the part itself, its numbers untouched. The
      image sits in a hidden registered input, which holds "" for a part without one;
      the description is driven by the editor and stays absent. */
  function DraftOf(part: Part): (r: EditPartDraft)
    ensures r.name == part.name && r.description == part.description
    ensures r.price == Untouched(part.price) && r.cost == Untouched(part.cost)
    ensures part.imageUrl.Some? ==> r.imageUrl == part.imageUrl
    ensures part.imageUrl.None? ==> r.imageUrl == Some("")
  {
    EditPartDraft(part.name, part.description, Untouched(part.price), Untouched(part.cost),
                  RegisteredText(part.imageUrl))
  }

  /** `partSchema` on the edit form: an untouched price or cost aborts the parse
      with one issue that no field shows; once both are typed, the schema checks
      the typed values. */
  function ValidatePartEdit(e: EditPartDraft): (r: Result<PartValues, seq<Issue>>)
    ensures e.price.Untouched? || e.cost.Untouched? ==> r == Err([Issue(RootPath, NotAString)])
    ensures e.price.Typed? && e.cost.Typed? ==>
      r == ValidatePart(PartDraft(e.name, e.description, e.price.parsed, e.cost.parsed, e.imageUrl))
  {
    match (Preprocess(e.price), Preprocess(e.cost))
    case (Ok(price), Ok(cost)) => ValidatePart(PartDraft(e.name, e.description, price, cost, e.imageUrl))
    case (Err(issue), _) => Err([issue])
    case (_, Err(issue)) => Err([issue])
  }

  /** Whatever else is edited, a form whose price or cost was never typed into is
      refused, and the refusal names no field. */
  lemma UntouchedNumberRefused(part: Part, e: EditPartDraft)
    requires e.price == DraftOf(part).price || e.cost == DraftOf(part).cost
    ensures ValidatePartEdit(e).Err?
    ensures forall i :: 0 <= i < |ValidatePartEdit(e).error| ==> ValidatePartEdit(e).error[i].path == RootPath
  {
  }

  /** The form as opened, with price and cost typed in again as they were. */
  function Retyped(part: Part): EditPartDraft {
    DraftOf(part).(price := Typed(Some(part.price)), cost := Typed(Some(part.cost)))
  }

  /** Saving a valid part with its numbers retyped unchanged gives back the same
      part, except that a part without an image is saved with the empty image. */
  lemma RetypedEditSavesPart(part: Part)
    requires part.name != "" && part.price > 0.0 && part.cost > 0.0
    ensures ValidatePartEdit(Retyped(part)).Ok?
    ensures part.imageUrl.Some? ==> MergePart(part, ValidatePartEdit(Retyped(part)).value) == part
    ensures part.imageUrl.None? ==>
      MergePart(part, ValidatePartEdit(Retyped(part)).value) == part.(imageUrl := Some(""))
  {
  }

  /** Merging twice with the same values is merging once. */
  lemma MergePartIdempotent(part: Part, v: PartValues)
    ensures MergePart(MergePart(part, v), v) == MergePart(part, v)
  {
  }

  /** The add dialog's submission: `partSchema` strips everything but its own fields. */
  function ToNewPart(v: PartValues): (r: NewPart)
    ensures r.name == v.name && r.description == v.description && r.price == v.price && r.cost == v.cost
  {
    NewPart(v.name, v.description, v.price, v.cost)
  }

  /** `EditPartDialog`. */
  class EditPartDialog {
    var part: Part
    var values: EditPartDraft
    var updates: seq<Part>
    var closeRequested: bool

    constructor (part: Part)
      ensures this.part == part && values == DraftOf(part) && updates == [] && !closeRequested
    {
      this.part := part;
      values := DraftOf(part);
      updates := [];
      closeRequested := false;
    }

    /** The reset effect when a different part is passed in. */
    method ReceivePart(p: Part)
      modifies this`part, this`values
      ensures part == p && values == DraftOf(p)
    {
      part := p;
      values := DraftOf(p);
    }

    method EditName(name: string)
      modifies this`values
      ensures values == old(values).(name := name)
    {
      values := values.(name := name);
    }

    /** The rich-text editor's change. */
    method EditDescription(description: Option<string>)
      modifies this`values
      ensures values == old(values).(description := description)
    {
      values := values.(description := description);
    }

    /** Typing into the price input: from now on it holds the parsed text. */
    method EditPrice(parsed: Option<real>)
      modifies this`values
      ensures values == old(values).(price := Typed(parsed))
    {
      values := values.(price := Typed(parsed));
    }

    method EditCost(parsed: Option<real>)
      modifies this`values
      ensures values == old(values).(cost := Typed(parsed))
    {
      values := values.(cost := Typed(parsed));
    }

    /** `handleImageUpload`: a file over 1 MB is refused (`tooLarge`) and the image
        is kept; a smaller one becomes the image as a data URL. */
    method HandleImageUpload(file: Option<PickedFile>) returns (tooLarge: bool)
      modifies this`values
      ensures tooLarge <==> file.Some? && file.value.size > MaxImageBytes
      ensures file.None? || tooLarge ==> values == old(values)
      ensures file.Some? && !tooLarge ==> values == old(values).(imageUrl := Some(file.value.dataUrl))
    {
      tooLarge := false;
      if file.Some? {
        if file.value.size > MaxImageBytes {
          tooLarge := true;
          return;
        }
        values := values.(imageUrl := Some(file.value.dataUrl));
      }
    }

    /** `handleRemoveImage`: the image becomes the empty string. */
    method HandleRemoveImage()
      modifies this`values
      ensures values == old(values).(imageUrl := Some(""))
    {
      values := values.(imageUrl := Some(""));
    }

    /** A valid submission hands the merged part to `onUpdatePart` and asks to close;
        otherwise the issues come back and nothing is saved. */
    method Submit() returns (issues: seq<Issue>)
      modifies this`updates, this`closeRequested
      ensures ValidatePartEdit(values).Err? ==>
        issues == ValidatePartEdit(values).error && updates == old(updates) && closeRequested == old(closeRequested)
      ensures ValidatePartEdit(values).Ok? ==>
        issues == [] && updates == old(updates) + [MergePart(part, ValidatePartEdit(values).value)] && closeRequested
    {
      var checked := ValidatePartEdit(values);
      if checked.Err? {
        issues := checked.error;
        return;
      }
      issues := [];
      updates := updates + [MergePart(part, checked.value)];
      closeRequested := true;
    }

    /** Cancel only asks to close; nothing is saved. */
    method Cancel()
      modifies this`closeRequested
      ensures closeRequested
    {
      closeRequested := true;
    }
  }

  /** Opening a part and saving after editing only its name: the save is refused
      with an issue no field shows, and no update reaches `onUpdatePart`. */
  method SaveWithUntouchedNumbers(part: Part, name: string) returns (issues: seq<Issue>, saved: seq<Part>)
    ensures issues == [Issue(RootPath, NotAString)] && saved == []
  {
    var dialog := new EditPartDialog(part);
    dialog.EditName(name);
    issues := dialog.Submit();
    saved := dialog.updates;
  }

  /** Retyping price and cost unchanged and saving hands back the same part, with
      the empty image when it had none. */
  method SaveRetyped(part: Part) returns (saved: seq<Part>)
    requires part.name != "" && part.price > 0.0 && part.cost > 0.0
    ensures part.imageUrl.Some? ==> saved == [part]
    ensures part.imageUrl.None? ==> saved == [part.(imageUrl := Some(""))]
  {
    var dialog := new EditPartDialog(part);
    dialog.EditPrice(Some(part.price));
    dialog.EditCost(Some(part.cost));
    RetypedEditSavesPart(part);
    var _ := dialog.Submit();
    saved := dialog.updates;
  }

  /** `AddPartDialog`. */
  class AddPartDialog {
    var open: bool
    var values: PartDraft
    var added: seq<NewPart>

    constructor ()
      ensures !open && values == EmptyDraft && added == []
    {
      open := false;
      values := EmptyDraft;
      added := [];
    }

    method SetOpen(value: bool)
      modifies this`open
      ensures open == value
    {
      open := value;
    }

    /** The add form has no image field. */
    method Edit(d: PartDraft)
      modifies this`values
      ensures values == d.(imageUrl := None)
    {
      values := d.(imageUrl := None);
    }

    /** A valid submission passes the values to `onAddPart`, then clears the form and closes. */
    method Submit() returns (issues: seq<Issue>)
      modifies this`added, this`values, this`open
      ensures ValidatePart(old(values)).Err? ==>
        issues == ValidatePart(old(values)).error
        && added == old(added) && values == old(values) && open == old(open)
      ensures ValidatePart(old(values)).Ok? ==>
        issues == [] && added == old(added) + [ToNewPart(ValidatePart(old(values)).value)]
        && values == EmptyDraft && !open
    {
      var checked := ValidatePart(values);
      if checked.Err? {
        issues := checked.error;
        return;
      }
      issues := [];
      added := added + [ToNewPart(checked.value)];
      values := EmptyDraft;
      open := false;
    }
  }
}

=== FILE: seed_data.dfy ===
/** The hard-coded demo estimates and invoices and the arithmetic they obey.
    The demo clients are not part of this model: the records take the four
    clients they refer to as a parameter. */
module SeedData {
  import opened Types
  import opened Money

  const Estimate1LineItems: seq<LineItem> := [
    LineItem("li-1", "Web Design Consultation", 2.0, 150.0),
    LineItem("li-2", "Frontend Development (hourly)", 40.0, 120.0),
    LineItem("li-3", "Premium UI Kit License", 1.0, 250.0)
  ]

  const Estimate2LineItems: seq<LineItem> := [
    LineItem("li-4", "Backend Development (hourly)", 50.0, 135.0),
    LineItem("li-5", "Cloud Server (Standard Tier)", 1.0, 80.0),
    LineItem("li-6", "Standard SSL Certificate", 1.0, 50.0)
  ]

  function Estimate1Subtotal(): real { Subtotal(Estimate1LineItems) }
  function Estimate1Tax(): real { Estimate1Subtotal() * SeedTaxRate }
  function Estimate2Subtotal(): real { Subtotal(Estimate2LineItems) }
  function Estimate2Tax(): real { Estimate2Subtotal() * SeedTaxRate }

  /** Three estimates: Approved for the first client, Sent for the second, Draft for the third. */
  function SeedEstimates(clients: seq<Client>): (r: seq<Estimate>)
    requires |clients| == 4
    ensures |r| == 3
    ensures r[0].client == clients[0] && r[1].client == clients[1] && r[2].client == clients[2]
    ensures r[0].status == Approved && r[1].status == EstimateSent && r[2].status == EstimateDraft
    ensures r[0].estimateNumber == "EST-2024-001"
  {
    [
      Estimate("est-1", "EST-2024-001", clients[0], "2024-07-15", "2024-08-14",
        Estimate1LineItems, Estimate1Subtotal(), Estimate1Tax(),
        Estimate1Subtotal() + Estimate1Tax(), Approved),
      Estimate("est-2", "EST-2024-002", clients[1], "2024-07-18", "2024-08-17",
        Estimate2LineItems, Estimate2Subtotal(), Estimate2Tax(),
        Estimate2Subtotal() + Estimate2Tax(), EstimateSent),
      Estimate("est-3", "EST-2024-003", clients[2], "2024-07-20", "2024-08-19",
        [LineItem("li-7", "Full-Stack Project Retainer", 1.0, 4500.0)],
        4500.0, 360.0, 4860.0, EstimateDraft)
    ]
  }

  /** Three invoices: Paid for the first client, Overdue for the fourth, Sent for the second. */
  function SeedInvoices(clients: seq<Client>): (r: seq<Invoice>)
    requires |clients| == 4
    ensures |r| == 3
    ensures r[0].client == clients[0] && r[1].client == clients[3] && r[2].client == clients[1]
    ensures r[0].status == Paid && r[1].status == Overdue && r[2].status == InvoiceSent
    ensures r[0].estimateNumber == "EST-2024-001"
  {
    [
      Invoice("inv-1", "INV-2024-001", "EST-2024-001", clients[0], "2024-07-20", "2024-08-19",
        Estimate1LineItems, Estimate1Subtotal(), Estimate1Tax(),
        Estimate1Subtotal() + Estimate1Tax(), Estimate1Subtotal() + Estimate1Tax(), Paid),
      Invoice("inv-2", "INV-2024-002", "EST-2024-004", clients[3], "2024-06-01", "2024-07-01",
        [LineItem("li-8", "Emergency Server Maintenance", 5.0, 200.0)],
        1000.0, 80.0, 1080.0, 0.0, Overdue),
      Invoice("inv-3", "INV-2024-003", "EST-2024-005", clients[1], "2024-07-22", "2024-08-21",
        [LineItem("li-9", "Marketing Site Development", 1.0, 6000.0)],
        6000.0, 480.0, 6480.0, 0.0, InvoiceSent)
    ]
  }

  /** The folded seed subtotals come to 5350 and 6880. */
  lemma SeedSubtotals()
    ensures Estimate1Subtotal() == 5350.0
    ensures Estimate2Subtotal() == 6880.0
  {
    SubtotalAppend(Estimate1LineItems[..2], Estimate1LineItems[2..]);
    SubtotalAppend(Estimate1LineItems[..1], Estimate1LineItems[1..2]);
    SubtotalSingleton(Estimate1LineItems[0]);
    SubtotalSingleton(Estimate1LineItems[1]);
    SubtotalSingleton(Estimate1LineItems[2]);
    assert Estimate1LineItems == Estimate1LineItems[..1] + Estimate1LineItems[1..2] + Estimate1LineItems[2..];
    SubtotalAppend(Estimate2LineItems[..2], Estimate2LineItems[2..]);
    SubtotalAppend(Estimate2LineItems[..1], Estimate2LineItems[1..2]);
    SubtotalSingleton(Estimate2LineItems[0]);
    SubtotalSingleton(Estimate2LineItems[1]);
    SubtotalSingleton(Estimate2LineItems[2]);
    assert Estimate2LineItems == Estimate2LineItems[..1] + Estimate2LineItems[1..2] + Estimate2LineItems[2..];
  }

  /** Every seed estimate, the two computed ones and the literal 4500/360/4860 one,
      obeys subtotal = fold, tax = 8% of subtotal, total = subtotal + tax. */
  lemma SeedEstimatesConsistent(clients: seq<Client>)
    requires |clients| == 4
    ensures forall e :: e in SeedEstimates(clients) ==> EstimateConsistent(e)
    ensures SeedEstimates(clients)[0].total == 5778.0
    ensures SeedEstimates(clients)[1].total == 7430.4
  {
    SeedSubtotals();
    SubtotalSingleton(LineItem("li-7", "Full-Stack Project Retainer", 1.0, 4500.0));
  }

  /** The literal invoices (5 x 200 and 1 x 6000) obey the same rule as the computed one. */
  lemma SeedInvoicesConsistent(clients: seq<Client>)
    requires |clients| == 4
    ensures forall inv :: inv in SeedInvoices(clients) ==> InvoiceConsistent(inv)
  {
    SeedSubtotals();
    SubtotalSingleton(LineItem("li-8", "Emergency Server Maintenance", 5.0, 200.0));
    SubtotalSingleton(LineItem("li-9", "Marketing Site Development", 1.0, 6000.0));
  }

  /** The invoice that names EST-2024-001 carries exactly that estimate's rows and money fields. */
  lemma InvoiceCopiesItsEstimate(clients: seq<Client>)
    requires |clients| == 4
    ensures var e, inv := SeedEstimates(clients)[0], SeedInvoices(clients)[0];
      && inv.estimateNumber == e.estimateNumber
      && inv.client == e.client
      && inv.lineItems == e.lineItems
      && inv.subtotal == e.subtotal && inv.tax == e.tax && inv.total == e.total
  {
  }

  /** The Paid invoice is settled; the Overdue and Sent ones have nothing paid yet. */
  lemma SeedBalances(clients: seq<Client>)
    requires |clients| == 4
    ensures forall inv :: inv in SeedInvoices(clients) && inv.status == Paid ==> BalanceDue(inv) == 0.0
    ensures forall inv :: inv in SeedInvoices(clients) && inv.status != Paid ==>
      inv.amountPaid == 0.0 && BalanceDue(inv) == inv.total
  {
  }
}

=== FILE: service_dialogs.dfy ===
/** The add-service and edit-service dialogs. The add form has a free-text image
    URL field checked as a URL; the edit form sets the image by upload instead. */
module ServiceDialogs {
  import opened Wrappers
  import opened Types
  import opened Forms

  const NameRequired := "Service name is required"
  const PriceMessage := "Price must be a positive number"
  const UrlMessage := "Please enter a valid URL"

  datatype ServiceDraft = ServiceDraft(
    name: string,
    description: Option<string>,
    price: Option<real>,
    imageUrl: Option<string>)

  /** Values that passed one of the two service schemas. */
  datatype ServiceValues = ServiceValues(
    name: string,
    description: Option<string>,
    price: real,
    imageUrl: Option<string>)

  /** A service without its id, as handed to the add callback. */
  datatype NewService = NewService(
    name: string,
    description: Option<string>,
    price: real,
    imageUrl: Option<string>)

  /** The add form before anything is typed: its text inputs hold "", so the
      price parses to NaN. */
  const EmptyDraft := ServiceDraft("", Some(""), None, Some(""))

  /** The checks both schemas share: a name and a strictly positive price. */
  function CommonIssues(d: ServiceDraft): (r: seq<Issue>)
    ensures r == [] <==> d.name != "" && d.price.Some? && d.price.value > 0.0
  {
    RequiredText("name", d.name, NameRequired) + PositiveNumber("price", d.price, PriceMessage)
  }

  /** The add form's image field: absent, empty, or a URL by `isUrl`
      (the schema library's URL check, which is not part of this model). */
  function UrlIssues(imageUrl: Option<string>, isUrl: string -> bool): (r: seq<Issue>)
    ensures r == [] <==> imageUrl.None? || imageUrl.value == "" || isUrl(imageUrl.value)
    ensures r != [] ==> r == [Issue("imageUrl", UrlMessage)]
  {
    if imageUrl.None? || imageUrl.value == "" || isUrl(imageUrl.value) then []
    else [Issue("imageUrl", UrlMessage)]
  }

  /** The edit dialog's `serviceSchema`: any image text is accepted. */
  function ValidateEditService(d: ServiceDraft): (r: Result<ServiceValues, seq<Issue>>)
    ensures r.Ok? <==> d.name != "" && d.price.Some? && d.price.value > 0.0
    ensures r.Ok? ==> r.value == ServiceValues(d.name, d.description, d.price.value, d.imageUrl)
    ensures r.Err? ==>
      && (Issue("name", NameRequired) in r.error <==> d.name == "")
      && (Issue("price", PriceMessage) in r.error <==> d.price.Some? && d.price.value <= 0.0)
      && (Issue("price", NotANumber) in r.error <==> d.price.None?)
  {
    var issues := CommonIssues(d);
    if issues == [] then Ok(ServiceValues(d.name, d.description, d.price.value, d.imageUrl))
    else Err(issues)
  }

  /** The add dialog's `serviceSchema`: as the edit one, and the image text must
      be empty or a URL. */
  function ValidateNewService(d: ServiceDraft, isUrl: string -> bool): (r: Result<ServiceValues, seq<Issue>>)
    ensures r.Ok? <==>
      && d.name != "" && d.price.Some? && d.price.value > 0.0
      && (d.imageUrl.None? || d.imageUrl.value == "" || isUrl(d.imageUrl.value))
    ensures r.Ok? ==> r.value == ServiceValues(d.name, d.description, d.price.value, d.imageUrl)
    ensures r.Err? ==>
      && (Issue("name", NameRequired) in r.error <==> d.name == "")
      && (Issue("price", PriceMessage) in r.error <==> d.price.Some? && d.price.value <= 0.0)
      && (Issue("price", NotANumber) in r.error <==> d.price.None?)
      && (Issue("imageUrl", UrlMessage) in r.error <==>
            d.imageUrl.Some? && d.imageUrl.value != "" && !isUrl(d.imageUrl.value))
  {
    var issues := CommonIssues(d) + UrlIssues(d.imageUrl, isUrl);
    if issues == [] then Ok(ServiceValues(d.name, d.description, d.price.value, d.imageUrl))
    else Err(issues)
  }

  /** The add schema accepts exactly what the edit schema accepts, less the
      non-URL image texts. */
  lemma NewSchemaIsStricter(d: ServiceDraft, isUrl: string -> bool)
    ensures ValidateNewService(d, isUrl).Ok? ==> ValidateEditService(d) == ValidateNewService(d, isUrl)
    ensures ValidateEditService(d).Ok? && ValidateNewService(d, isUrl).Err? ==>
      ValidateNewService(d, isUrl).error == [Issue("imageUrl", UrlMessage)]
  {
  }

  /** `{...service, ...data}`: the id stays; every field the form supplies replaces the service's. */
  function MergeService(service: Service, v: ServiceValues): (r: Service)
    ensures r.id == service.id
    ensures r.name == v.name && r.price == v.price
    ensures r.description == Override(service.description, v.description)
    ensures r.imageUrl == Override(service.imageUrl, v.imageUrl)
  {
    Service(service.id, v.name, Override(service.description, v.description), v.price,
            Override(service.imageUrl, v.imageUrl))
  }

  /** The edit form's fields. The price holds the service's number until its
      input is typed into. */
  datatype EditServiceDraft = EditServiceDraft(
    name: string,
    description: Option<string>,
    price: NumberInput,
    imageUrl: Option<string>)

  /** What the edit form opens on: the service itself, its price untouched. The
      image sits in a hidden registered input, which holds "" for a service without
      one; the description is driven by the editor and stays absent. */
  function DraftOf(service: Service): (r: EditServiceDraft)
    ensures r.name == service.name && r.description == service.description
    ensures r.price == Untouched(service.price)
    ensures service.imageUrl.Some? ==> r.imageUrl == service.imageUrl
    ensures service.imageUrl.None? ==> r.imageUrl == Some("")
  {
    EditServiceDraft(service.name, service.description, Untouched(service.price),
                     RegisteredText(service.imageUrl))
  }

  /** The edit dialog's `serviceSchema` on its form: an untouched price aborts the
      parse with one issue that no field shows; a typed one goes to the checks. */
  function ValidateServiceEdit(e: EditServiceDraft): (r: Result<ServiceValues, seq<Issue>>)
    ensures e.price.Untouched? ==> r == Err([Issue(RootPath, NotAString)])
    ensures e.price.Typed? ==>
      r == ValidateEditService(ServiceDraft(e.name, e.description, e.price.parsed, e.imageUrl))
  {
    match Preprocess(e.price)
    case Ok(price) => ValidateEditService(ServiceDraft(e.name, e.description, price, e.imageUrl))
    case Err(issue) => Err([issue])
  }

  /** Whatever else is edited, a form whose price was never typed into is refused,
      and the refusal names no field. */
  lemma UntouchedPriceRefused(service: Service, e: EditServiceDraft)
    requires e.price == DraftOf(service).price
    ensures ValidateServiceEdit(e).Err?
    ensures forall i :: 0 <= i < |ValidateServiceEdit(e).error| ==> ValidateServiceEdit(e).error[i].path == RootPath
  {
  }

  /** The form as opened, with the price typed in again as it was. */
  function Retyped(service: Service): EditServiceDraft {
    DraftOf(service).(price := Typed(Some(service.price)))
  }

  /** Saving a valid service with its price retyped unchanged gives back the same
      service, except that a service without an image is saved with the empty image. */
  lemma RetypedEditSavesService(service: Service)
    requires service.name != "" && service.price > 0.0
    ensures ValidateServiceEdit(Retyped(service)).Ok?
    ensures service.imageUrl.Some? ==> MergeService(service, ValidateServiceEdit(Retyped(service)).value) == service
    ensures service.imageUrl.None? ==>
      MergeService(service, ValidateServiceEdit(Retyped(service)).value) == service.(imageUrl := Some(""))
  {
  }

  /** Removing the image and saving leaves the service with an empty image URL,
      not with its old one. */
  lemma RemovedImageIsSaved(service: Service, e: EditServiceDraft)
    requires ValidateServiceEdit(e.(imageUrl := Some(""))).Ok?
    ensures MergeService(service, ValidateServiceEdit(e.(imageUrl := Some(""))).value).imageUrl == Some("")
  {
  }

  function ToNewService(v: ServiceValues): (r: NewService)
    ensures r.name == v.name && r.description == v.description && r.price == v.price && r.imageUrl == v.imageUrl
  {
    NewService(v.name, v.description, v.price, v.imageUrl)
  }

  /** `EditServiceDialog`. */
  class EditServiceDialog {
    var service: Service
    var values: EditServiceDraft
    var updates: seq<Service>
    var closeRequested: bool

    constructor (service: Service)
      ensures this.service == service && values == DraftOf(service) && updates == [] && !closeRequested
    {
      this.service := service;
      values := DraftOf(service);
      updates := [];
      closeRequested := false;
    }

    /** The reset effect when a different service is passed in. */
    method ReceiveService(s: Service)
      modifies this`service, this`values
      ensures service == s && values == DraftOf(s)
    {
      service := s;
      values := DraftOf(s);
    }

    method EditName(name: string)
      modifies this`values
      ensures values == old(values).(name := name)
    {
      values := values.(name := name);
    }

    /** The rich-text editor's change. */
    method EditDescription(description: Option<string>)
      modifies this`values
      ensures values == old(values).(description := description)
    {
      values := values.(description := description);
    }

    /** Typing into the price input: from now on it holds the parsed text. */
    method EditPrice(parsed: Option<real>)
      modifies this`values
      ensures values == old(values).(price := Typed(parsed))
    {
      values := values.(price := Typed(parsed));
    }

    /** `handleImageUpload`: a file over 1 MB is refused (`tooLarge`) and the image
        is kept; a smaller one becomes the image as a data URL. */
    method HandleImageUpload(file: Option<PickedFile>) returns (tooLarge: bool)
      modifies this`values
      ensures tooLarge <==> file.Some? && file.value.size > MaxImageBytes
      ensures file.None? || tooLarge ==> values == old(values)
      ensures file.Some? && !tooLarge ==> values == old(values).(imageUrl := Some(file.value.dataUrl))
    {
      tooLarge := false;
      if file.Some? {
        if file.value.size > MaxImageBytes {
          tooLarge := true;
          return;
        }
        values := values.(imageUrl := Some(file.value.dataUrl));
      }
    }

    /** `handleRemoveImage`: the image becomes the empty string. */
    method HandleRemoveImage()
      modifies this`values
      ensures values == old(values).(imageUrl := Some(""))
    {
      values := values.(imageUrl := Some(""));
    }

    /** A valid submission hands the merged service to `onUpdateService` and asks to
        close; otherwise the issues come back and nothing is saved. */
    method Submit() returns (issues: seq<Issue>)
      modifies this`updates, this`closeRequested
      ensures ValidateServiceEdit(values).Err? ==>
        issues == ValidateServiceEdit(values).error && updates == old(updates) && closeRequested == old(closeRequested)
      ensures ValidateServiceEdit(values).Ok? ==>
        issues == [] && updates == old(updates) + [MergeService(service, ValidateServiceEdit(values).value)]
        && closeRequested
    {
      var checked := ValidateServiceEdit(values);
      if checked.Err? {
        issues := checked.error;
        return;
      }
      issues := [];
      updates := updates + [MergeService(service, checked.value)];
      closeRequested := true;
    }

    /** Cancel only asks to close; nothing is saved. */
    method Cancel()
      modifies this`closeRequested
      ensures closeRequested
    {
      closeRequested := true;
    }
  }

  /** Opening a service and saving after editing only its name: the save is refused
      with an issue no field shows, and no update reaches `onUpdateService`. */
  method SaveWithUntouchedPrice(service: Service, name: string) returns (issues: seq<Issue>, saved: seq<Service>)
    ensures issues == [Issue(RootPath, NotAString)] && saved == []
  {
    var dialog := new EditServiceDialog(service);
    dialog.EditName(name);
    issues := dialog.Submit();
    saved := dialog.updates;
  }

  /** Retyping the price unchanged and saving hands back the same service, with
      the empty image when it had none. */
  method SaveRetyped(service: Service) returns (saved: seq<Service>)
    requires service.name != "" && service.price > 0.0
    ensures service.imageUrl.Some? ==> saved == [service]
    ensures service.imageUrl.None? ==> saved == [service.(imageUrl := Some(""))]
  {
    var dialog := new EditServiceDialog(service);
    dialog.EditPrice(Some(service.price));
    RetypedEditSavesService(service);
    var _ := dialog.Submit();
    saved := dialog.updates;
  }

  /** `AddServiceDialog`. */
  class AddServiceDialog {
    var open: bool
    var values: ServiceDraft
    var added: seq<NewService>

    constructor ()
      ensures !open && values == EmptyDraft && added == []
    {
      open := false;
      values := EmptyDraft;
      added := [];
    }

    method SetOpen(value: bool)
      modifies this`open
      ensures open == value
    {
      open := value;
    }

    method Edit(d: ServiceDraft)
      modifies this`values
      ensures values == d
    {
      values := d;
    }

    /** A valid submission passes the values to `onAddService`, then clears the form and closes. */
    method Submit(isUrl: string -> bool) returns (issues: seq<Issue>)
      modifies this`added, this`values, this`open
      ensures ValidateNewService(old(values), isUrl).Err? ==>
        issues == ValidateNewService(old(values), isUrl).error
        && added == old(added) && values == old(values) && open == old(open)
      ensures ValidateNewService(old(values), isUrl).Ok? ==>
        issues == [] && added == old(added) + [ToNewService(ValidateNewService(old(values), isUrl).value)]
        && values == EmptyDraft && !open
    {
      var checked := ValidateNewService(values, isUrl);
      if checked.Err? {
        issues := checked.error;
        return;
      }
      issues := [];
      added := added + [ToNewService(checked.value)];
      values := EmptyDraft;
      open := false;
    }
  }
}

=== FILE: tax_dialogs.dfy ===
/** The add-tax and edit-tax dialogs. The form shows a rate as a percentage;
    the stored tax holds it as a fraction. */
module TaxDialogs {
  import opened Wrappers
  import opened Types
  import opened Forms

  const NameRequired := "Tax name is required"
  const RateMessage := "Rate must be a positive number"

  /** The form's fields: the name and the parsed percentage. */
  datatype TaxDraft = TaxDraft(name: string, rate: Option<real>)

  /** Values that passed the schema; `rate` is still a percentage. */
  datatype TaxValues = TaxValues(name: string, rate: real)

  /** A tax without its id, as handed to the add callback. */
  datatype NewTax = NewTax(name: string, rate: real)

  /** A form after `reset()` with no defaults: nothing entered. */
  const EmptyDraft := TaxDraft("", None)

  /** `taxSchema`: a non-empty name and a rate of zero or more (zero passes,
      whatever the message says). */
  function ValidateTax(d: TaxDraft): (r: Result<TaxValues, seq<Issue>>)
    ensures r.Ok? <==> d.name != "" && d.rate.Some? && d.rate.value >= 0.0
    ensures r.Ok? ==> r.value == TaxValues(d.name, d.rate.value)
    ensures r.Err? ==>
      && r.error != []
      && (Issue("name", NameRequired) in r.error <==> d.name == "")
      && (Issue("rate", RateMessage) in r.error <==> d.rate.Some? && d.rate.value < 0.0)
      && (Issue("rate", NotANumber) in r.error <==> d.rate.None?)
  {
    var issues := RequiredText("name", d.name, NameRequired)
      + NonNegativeNumber("rate", d.rate, RateMessage);
    if issues == [] then Ok(TaxValues(d.name, d.rate.value)) else Err(issues)
  }

  /** Percentage entered to stored fraction: `rate / 100`. */
  function PercentToFraction(percent: real): real {
    percent / 100.0
  }

  /** Stored fraction to percentage shown: `rate * 100`. */
  function FractionToPercent(fraction: real): real {
    fraction * 100.0
  }

  /** The two conversions undo each other, in both orders, and keep the sign. */
  lemma RateConversionRoundTrip(x: real)
    ensures PercentToFraction(FractionToPercent(x)) == x
    ensures FractionToPercent(PercentToFraction(x)) == x
    ensures PercentToFraction(x) >= 0.0 <==> x >= 0.0
  {
  }

  /** 8.25 entered is stored as 0.0825. */
  lemma EightAndAQuarterPercent()
    ensures PercentToFraction(8.25) == 0.0825
  {
  }

  /** The edit form's fields. The rate holds the tax's percentage as a number
      until its input is typed into. */
  datatype EditTaxDraft = EditTaxDraft(name: string, rate: NumberInput)

  /** What the edit form opens on: the tax's name and its rate times 100, untouched. */
  function EditDefaults(tax: Tax): (r: EditTaxDraft)
    ensures r.name == tax.name && r.rate.Untouched?
    ensures PercentToFraction(r.rate.number) == tax.rate
  {
    EditTaxDraft(tax.name, Untouched(FractionToPercent(tax.rate)))
  }

  /** `taxSchema` on the edit form: an untouched rate aborts the parse with one
      issue that no field shows; a typed one goes to the checks. */
  function ValidateTaxEdit(e: EditTaxDraft): (r: Result<TaxValues, seq<Issue>>)
    ensures e.rate.Untouched? ==> r == Err([Issue(RootPath, NotAString)])
    ensures e.rate.Typed? ==> r == ValidateTax(TaxDraft(e.name, e.rate.parsed))
  {
    match Preprocess(e.rate)
    case Ok(rate) => ValidateTax(TaxDraft(e.name, rate))
    case Err(issue) => Err([issue])
  }

  /** Editing only the name leaves the rate untouched, so the save is refused and
      the refusal names no field. */
  lemma NameOnlyEditRefused(tax: Tax, name: string)
    ensures ValidateTaxEdit(EditDefaults(tax).(name := name)) == Err([Issue(RootPath, NotAString)])
  {
  }

  /** `{...tax, ...data, rate: data.rate / 100}`: the id stays, the name and the
      (converted) rate are replaced. */
  function ApplyTaxEdit(tax: Tax, v: TaxValues): (r: Tax)
    ensures r.id == tax.id && r.name == v.name
    ensures FractionToPercent(r.rate) == v.rate
  {
    tax.(name := v.name, rate := PercentToFraction(v.rate))
  }

  /** Saving the form with the rate retyped as it was shown gives back the very same tax. */
  lemma RetypedEditKeepsTax(tax: Tax)
    requires tax.name != "" && tax.rate >= 0.0
    ensures ValidateTaxEdit(EditTaxDraft(tax.name, Typed(Some(FractionToPercent(tax.rate))))).Ok?
    ensures ApplyTaxEdit(tax, ValidateTaxEdit(EditTaxDraft(tax.name, Typed(Some(FractionToPercent(tax.rate))))).value) == tax
  {
    RateConversionRoundTrip(tax.rate);
  }

  /** The add dialog's submission: the validated values with the rate as a fraction. */
  function ToNewTax(v: TaxValues): (r: NewTax)
    ensures r.name == v.name && FractionToPercent(r.rate) == v.rate
  {
    NewTax(v.name, PercentToFraction(v.rate))
  }

  /** `EditTaxDialog`: the tax being edited, the form's defaults and current
      values, the saved taxes handed to `onUpdateTax`, and whether it asked to close. */
  class EditTaxDialog {
    var tax: Tax
    var defaults: EditTaxDraft
    var values: EditTaxDraft
    var updates: seq<Tax>
    var closeRequested: bool

    constructor (tax: Tax)
      ensures this.tax == tax && defaults == EditDefaults(tax) && values == defaults
      ensures updates == [] && !closeRequested
    {
      this.tax := tax;
      defaults := EditDefaults(tax);
      values := EditDefaults(tax);
      updates := [];
      closeRequested := false;
    }

    /** The reset effect when a different tax is passed in. */
    method ReceiveTax(t: Tax)
      modifies this`tax, this`defaults, this`values
      ensures tax == t && defaults == EditDefaults(t) && values == defaults
    {
      tax := t;
      defaults := EditDefaults(t);
      values := defaults;
    }

    method EditName(name: string)
      modifies this`values
      ensures values == old(values).(name := name)
    {
      values := values.(name := name);
    }

    /** Typing into the rate input: from now on it holds the parsed text. */
    method EditRate(parsed: Option<real>)
      modifies this`values
      ensures values == old(values).(rate := Typed(parsed))
    {
      values := values.(rate := Typed(parsed));
    }

    /** Save is disabled while the form still holds its defaults. A typed rate
        never equals the untouched number, so typing into the rate makes the form dirty. */
    function SaveDisabled(): (r: bool)
      reads this
      ensures r <==> values == defaults
      ensures defaults.rate.Untouched? && values.rate.Typed? ==> !r
    {
      values == defaults
    }

    /** Submitting: nothing while Save is disabled; the schema's issues when the
        values fail it; otherwise the merged tax goes to `onUpdateTax` and the
        dialog asks to close. */
    method Submit() returns (issues: seq<Issue>)
      modifies this`updates, this`closeRequested
      ensures old(SaveDisabled()) ==> issues == [] && updates == old(updates) && closeRequested == old(closeRequested)
      ensures !old(SaveDisabled()) && ValidateTaxEdit(values).Err? ==>
        issues == ValidateTaxEdit(values).error && updates == old(updates) && closeRequested == old(closeRequested)
      ensures !old(SaveDisabled()) && ValidateTaxEdit(values).Ok? ==>
        issues == [] && updates == old(updates) + [ApplyTaxEdit(tax, ValidateTaxEdit(values).value)] && closeRequested
    {
      issues := [];
      if SaveDisabled() {
        return;
      }
      var checked := ValidateTaxEdit(values);
      if checked.Err? {
        issues := checked.error;
        return;
      }
      updates := updates + [ApplyTaxEdit(tax, checked.value)];
      closeRequested := true;
    }

    method Cancel()
      modifies this`closeRequested
      ensures closeRequested
    {
      closeRequested := true;
    }
  }

  /** Opening a tax and saving after editing only its name: nothing reaches
      `onUpdateTax`. With the name unchanged Save is disabled; with a new name
      the save is refused by an issue no field shows. */
  method SaveAfterNameOnlyEdit(tax: Tax, name: string) returns (issues: seq<Issue>, saved: seq<Tax>)
    ensures saved == []
    ensures name == tax.name ==> issues == []
    ensures name != tax.name ==> issues == [Issue(RootPath, NotAString)]
  {
    var dialog := new EditTaxDialog(tax);
    dialog.EditName(name);
    issues := dialog.Submit();
    saved := dialog.updates;
  }

  /** Retyping the rate as shown and saving hands back the same tax. */
  method SaveRetypedRate(tax: Tax) returns (saved: seq<Tax>)
    requires tax.name != "" && tax.rate >= 0.0
    ensures saved == [tax]
  {
    var dialog := new EditTaxDialog(tax);
    dialog.EditRate(Some(FractionToPercent(tax.rate)));
    RetypedEditKeepsTax(tax);
    var _ := dialog.Submit();
    saved := dialog.updates;
  }

  /** `AddTaxDialog`: open flag, form values, and the taxes handed to `onAddTax`. */
  class AddTaxDialog {
    var open: bool
    var values: TaxDraft
    var added: seq<NewTax>

    constructor ()
      ensures !open && values == EmptyDraft && added == []
    {
      open := false;
      values := EmptyDraft;
      added := [];
    }

    /** Opening or closing; the close effect clears the form. */
    method SetOpen(value: bool)
      modifies this`open, this`values
      ensures open == value
      ensures !value ==> values == EmptyDraft
      ensures value ==> values == old(values)
    {
      open := value;
      if !value {
        values := EmptyDraft;
      }
    }

    method Edit(d: TaxDraft)
      modifies this`values
      ensures values == d
    {
      values := d;
    }

    /** A valid submission calls `onAddTax` once with the rate as a fraction, then
        clears the form and closes; an invalid one only reports its issues. */
    method Submit() returns (issues: seq<Issue>)
      modifies this`added, this`values, this`open
      ensures ValidateTax(old(values)).Err? ==>
        issues == ValidateTax(old(values)).error
        && added == old(added) && values == old(values) && open == old(open)
      ensures ValidateTax(old(values)).Ok? ==>
        issues == [] && added == old(added) + [ToNewTax(ValidateTax(old(values)).value)]
        && values == EmptyDraft && !open
    {
      var checked := ValidateTax(values);
      if checked.Err? {
        issues := checked.error;
        return;
      }
      issues := [];
      added := added + [ToNewTax(checked.value)];
      values := EmptyDraft;
      open := false;
    }
  }
}

=== FILE: types.dfy ===
/** The records of the estimator: clients, catalog items, line items,
    estimates and invoices, and the catalog entries the library dialogs edit. */
module Types {
  import opened Wrappers

  datatype Client = Client(
    id: string,
    firstName: string,
    lastName: string,
    email: string,
    phone: Option<string>,
    address: Option<string>,
    userId: Option<string>)

  /** A catalog entry as the library picker shows it. */
  datatype Item = Item(id: string, name: string, description: string, price: real)

  /** A line item carries its own description and price; it holds no link to a catalog item. */
  datatype LineItem = LineItem(id: string, description: string, quantity: real, price: real)

  datatype EstimateStatus = EstimateDraft | EstimateSent | Approved | Rejected

  datatype InvoiceStatus = InvoiceDraft | InvoiceSent | Paid | Overdue

  /** An estimate owns its line items by value. */
  datatype Estimate = Estimate(
    id: string,
    estimateNumber: string,
    client: Client,
    estimateDate: string,
    expiryDate: string,
    lineItems: seq<LineItem>,
    subtotal: real,
    tax: real,
    total: real,
    status: EstimateStatus)

  /** An invoice owns its own copy of line items, keeps amountPaid apart from total
      and names its estimate by number only. */
  datatype Invoice = Invoice(
    id: string,
    invoiceNumber: string,
    estimateNumber: string,
    client: Client,
    invoiceDate: string,
    dueDate: string,
    lineItems: seq<LineItem>,
    subtotal: real,
    tax: real,
    total: real,
    amountPaid: real,
    status: InvoiceStatus)

  /** Catalog service, with the fields the service dialogs' schema carries. */
  datatype Service = Service(
    id: string,
    name: string,
    description: Option<string>,
    price: real,
    imageUrl: Option<string>)

  /** Catalog part: a service's fields plus a cost. */
  datatype Part = Part(
    id: string,
    name: string,
    description: Option<string>,
    price: real,
    cost: real,
    imageUrl: Option<string>)

  /** A tax; `rate` is stored as a fraction (0.0825 for 8.25%). */
  datatype Tax = Tax(id: string, name: string, rate: real)

  const EstimateStatusLabels: seq<string> := ["Draft", "Sent", "Approved", "Rejected"]
  const InvoiceStatusLabels: seq<string> := ["Draft", "Sent", "Paid", "Overdue"]

  function EstimateStatusLabel(s: EstimateStatus): (r: string)
    ensures r in EstimateStatusLabels
  {
    match s
    case EstimateDraft => "Draft"
    case EstimateSent => "Sent"
    case Approved => "Approved"
    case Rejected => "Rejected"
  }

  function InvoiceStatusLabel(s: InvoiceStatus): (r: string)
    ensures r in InvoiceStatusLabels
  {
    match s
    case InvoiceDraft => "Draft"
    case InvoiceSent => "Sent"
    case Paid => "Paid"
    case Overdue => "Overdue"
  }

  /** Reads a stored status string; only the four literals of the union type are accepted. */
  function ParseEstimateStatus(text: string): (r: Option<EstimateStatus>)
    ensures r.Some? <==> text in EstimateStatusLabels
    ensures r.Some? ==> EstimateStatusLabel(r.value) == text
  {
    if text == "Draft" then Some(EstimateDraft)
    else if text == "Sent" then Some(EstimateSent)
    else if text == "Approved" then Some(Approved)
    else if text == "Rejected" then Some(Rejected)
    else None
  }

  function ParseInvoiceStatus(text: string): (r: Option<InvoiceStatus>)
    ensures r.Some? <==> text in InvoiceStatusLabels
    ensures r.Some? ==> InvoiceStatusLabel(r.value) == text
  {
    if text == "Draft" then Some(InvoiceDraft)
    else if text == "Sent" then Some(InvoiceSent)
    else if text == "Paid" then Some(Paid)
    else if text == "Overdue" then Some(Overdue)
    else None
  }

  /** Every status survives being written as its label and read back. */
  lemma StatusLabelsRoundTrip(e: EstimateStatus, i: InvoiceStatus)
    ensures ParseEstimateStatus(EstimateStatusLabel(e)) == Some(e)
    ensures ParseInvoiceStatus(InvoiceStatusLabel(i)) == Some(i)
  {
  }
}

=== FILE: user_nav.dfy ===
/** The account menu: avatar initials and the two lines naming the signed-in user. */
module UserNav {
  import opened Wrappers

  /** `name.split(' ')`: the pieces between single spaces, empty pieces included. */
  function SplitSpaces(s: string): (r: seq<string>)
    ensures |r| >= 1
    ensures |r| == 1 <==> ' ' !in s
    ensures |r| == 1 ==> r[0] == s
    ensures r[0] <= s
    ensures forall i :: 0 <= i < |r| ==> ' ' !in r[i]
    decreases |s|
  {
    if s == [] then [""]
    else
      var rest := SplitSpaces(s[1..]);
      if s[0] == ' ' then [""] + rest
      else [[s[0]] + rest[0]] + rest[1..]
  }

  /** `pieces.join(' ')`. */
  function JoinSpaces(pieces: seq<string>): string
    requires |pieces| >= 1
    decreases |pieces|
  {
    if |pieces| == 1 then pieces[0] else pieces[0] + " " + JoinSpaces(pieces[1..])
  }

  /** Splitting loses nothing: joining the pieces back gives the name. */
  lemma {:induction false} JoinSplit(s: string)
    ensures JoinSpaces(SplitSpaces(s)) == s
    decreases |s|
  {
    if s != [] {
      var rest := SplitSpaces(s[1..]);
      JoinSplit(s[1..]);
      if s[0] == ' ' {
        assert SplitSpaces(s) == [""] + rest;
        assert ([""] + rest)[1..] == rest;
      } else {
        var r := SplitSpaces(s);
        assert r[0] == [s[0]] + rest[0];
        if |rest| > 1 {
          assert r[1..] == rest[1..];
        }
      }
    }
  }

  lemma {:induction false} SplitPrefix(a: string, t: string)
    requires ' ' !in a
    ensures SplitSpaces(a + t) == [a + SplitSpaces(t)[0]] + SplitSpaces(t)[1..]
    decreases |a|
  {
    var ts := SplitSpaces(t);
    if a == [] {
      assert a + t == t;
      assert a + ts[0] == ts[0];
      assert ts == [ts[0]] + ts[1..];
    } else {
      var s := a + t;
      assert s[0] == a[0] && s[0] != ' ';
      assert s[1..] == a[1..] + t;
      SplitPrefix(a[1..], t);
      var rest := SplitSpaces(s[1..]);
      assert rest == [a[1..] + ts[0]] + ts[1..];
      assert SplitSpaces(s) == [[s[0]] + rest[0]] + rest[1..];
      assert [s[0]] + rest[0] == a + ts[0];
      assert rest[1..] == ts[1..];
    }
  }

  /** Pieces without spaces split back out of their join: split and join are inverse. */
  lemma {:induction false} SplitJoin(pieces: seq<string>)
    requires |pieces| >= 1
    requires forall i :: 0 <= i < |pieces| ==> ' ' !in pieces[i]
    ensures SplitSpaces(JoinSpaces(pieces)) == pieces
    decreases |pieces|
  {
    if |pieces| == 1 {
      var r := SplitSpaces(pieces[0]);
      assert ' ' !in pieces[0];
      assert |r| == 1 && r[0] == pieces[0];
      assert r == pieces;
    } else {
      var tail := JoinSpaces(pieces[1..]);
      SplitJoin(pieces[1..]);
      assert JoinSpaces(pieces) == pieces[0] + (" " + tail);
      SplitPrefix(pieces[0], " " + tail);
      var st := SplitSpaces(" " + tail);
      assert (" " + tail)[0] == ' ' && (" " + tail)[1..] == tail;
      assert st == [""] + pieces[1..];
      assert st[0] == "" && st[1..] == pieces[1..];
      assert pieces[0] + "" == pieces[0];
      assert pieces == [pieces[0]] + pieces[1..];
    }
  }

  /** `${piece[0]}`: the first character, or the text "undefined" when the piece is empty. */
  function FirstCharText(piece: string): string {
    if piece == "" then "undefined" else [piece[0]]
  }

  /** `getInitials`: "U" without a name; otherwise the first character of the first
      piece and of the last piece, or of the only piece. */
  function GetInitials(name: Option<string>): (r: string)
    ensures !Truthy(name) ==> r == "U"
    ensures Truthy(name) && ' ' !in name.value ==> r == [name.value[0]]
  {
    if !Truthy(name) then "U"
    else
      var names := SplitSpaces(name.value);
      if |names| > 1 then FirstCharText(names[0]) + FirstCharText(names[|names| - 1])
      else [names[0][0]]
  }

  /** No piece is empty: no leading, trailing or doubled space. */
  predicate WellSpaced(name: string) {
    forall i :: 0 <= i < |SplitSpaces(name)| ==> SplitSpaces(name)[i] != ""
  }

  /** For a well-spaced name the initials are one character without a space and two
      with one: the name's first character, then the first character after its last space. */
  lemma InitialsOfWellSpacedName(name: string)
    requires name != "" && WellSpaced(name)
    ensures var r := GetInitials(Some(name));
      && |r| == (if ' ' in name then 2 else 1)
      && r[0] == name[0]
      && (' ' in name ==> r[1] == SplitSpaces(name)[|SplitSpaces(name)| - 1][0])
  {
    var names := SplitSpaces(name);
    assert names[0] != "" && names[0] <= name;
    assert names[0][0] == name[0];
    if |names| > 1 {
      assert names[|names| - 1] != "";
    }
  }

  /** An empty piece makes the template print "undefined": "Ada " gives "Aundefined". */
  lemma TrailingSpaceInitials()
    ensures GetInitials(Some("Ada ")) == "Aundefined"
  {
    assert JoinSpaces(["Ada", ""]) == "Ada" + " " + "";
    assert "Ada" + " " + "" == "Ada ";
    SplitJoin(["Ada", ""]);
    var names := SplitSpaces("Ada ");
    assert names == ["Ada", ""];
    assert FirstCharText(names[0]) == "A";
    assert FirstCharText(names[|names| - 1]) == "undefined";
  }

  /** The signed-in user, as far as the menu reads it. */
  datatype User = User(isAnonymous: bool, displayName: Option<string>, email: Option<string>, uid: string)

  /** The menu heading: "Anonymous User", else the display name, else "Account". */
  function Heading(user: Option<User>): (r: string)
    ensures r != ""
    ensures user.Some? && user.value.isAnonymous ==> r == "Anonymous User"
    ensures user.Some? && !user.value.isAnonymous && Truthy(user.value.displayName) ==>
      r == user.value.displayName.value
    ensures (user.None? || (!user.value.isAnonymous && !Truthy(user.value.displayName))) ==> r == "Account"
  {
    if user.Some? && user.value.isAnonymous then "Anonymous User"
    else if user.Some? then OrElse(user.value.displayName, Some("Account")).value
    else "Account"
  }

  /** The line under the heading: the email, else the uid; nothing without a user. */
  function SecondaryLine(user: Option<User>): (r: Option<string>)
    ensures user.None? <==> r.None?
    ensures user.Some? && Truthy(user.value.email) ==> r == user.value.email
    ensures user.Some? && !Truthy(user.value.email) ==> r == Some(user.value.uid)
  {
    if user.None? then None else OrElse(user.value.email, Some(user.value.uid))
  }
}

=== FILE: webe_api.dfy ===
/** Outbound estimator messages: the endpoint they are posted to and
    `buildMessagePayload`, their body built from the current session and the
    caller's input. */
module WebeApi {
  import opened Wrappers
  import opened EstimatorSession
  import Config

  const MessagePath := "/api/estimates/message"

  /** The endpoint `postEstimatorMessage` posts to: the API base URL, then the message path. */
  function MessageEndpoint(env: Config.Env): (r: string)
    ensures |r| >= |MessagePath| && r[|r| - |MessagePath|..] == MessagePath
    ensures r[..|r| - |MessagePath|] == Config.ApiBaseUrl(env)
  {
    Config.ApiBaseUrl(env) + MessagePath
  }

  /** A base URL configured with a trailing slash does not double the slash. */
  lemma SlashedBaseEndpoint(env: Config.Env, base: string)
    requires env.Keys == {Config.ApiBaseUrlVar} && env[Config.ApiBaseUrlVar] == base + "/"
    ensures MessageEndpoint(env) == base + MessagePath
  {
    Config.StripAppendedSlash(base);
  }

  const NoPageIdError := "Unable to determine pageId for estimator message payload."

  datatype MessageInput = MessageInput(
    recipientId: string,
    recipientType: string,
    message: string,
    subject: Option<string>,
    pageId: Option<string>)

  datatype MessagePayload = MessagePayload(
    pageId: string,
    recipientId: string,
    recipientType: string,
    message: string,
    subject: Option<string>,
    sessionId: Option<string>)

  /** `session.page?.id`, where the page context may be missing. */
  function PageContextId(session: SessionPayload): Option<string> {
    if session.page.Some? then session.page.value.id else None
  }

  /** `input.pageId || session.pageId || session.page?.id`: the first non-empty one. */
  function ResolvePageId(session: SessionPayload, input: MessageInput): (r: Option<string>)
    ensures Truthy(input.pageId) ==> r == input.pageId
    ensures !Truthy(input.pageId) && Truthy(session.pageId) ==> r == session.pageId
    ensures !Truthy(input.pageId) && !Truthy(session.pageId) ==> r == PageContextId(session)
  {
    OrElse(input.pageId, OrElse(session.pageId, PageContextId(session)))
  }

  /** Fails exactly when no page id resolves; on success the page id is the
      first non-empty of the three candidates,
      the recipient, message and subject are the caller's, and the session id is
      the session's. */
  function BuildMessagePayload(session: SessionPayload, input: MessageInput): (r: Result<MessagePayload, string>)
    ensures r.Err? <==> !Truthy(input.pageId) && !Truthy(session.pageId) && !Truthy(PageContextId(session))
    ensures r.Err? ==> r.error == NoPageIdError
    ensures r.Ok? ==>
      && r.value.pageId != ""
      && Some(r.value.pageId) == ResolvePageId(session, input)
      && r.value.recipientId == input.recipientId
      && r.value.recipientType == input.recipientType
      && r.value.message == input.message
      && r.value.subject == input.subject
      && r.value.sessionId == Some(session.sessionId)
  {
    var resolved := ResolvePageId(session, input);
    if !Truthy(resolved) then Err(NoPageIdError)
    else Ok(MessagePayload(resolved.value, input.recipientId, input.recipientType, input.message,
                           input.subject, Some(session.sessionId)))
  }

  /** The page id named by the caller wins over the session's, whatever the session holds. */
  lemma InputPageIdWins(session: SessionPayload, input: MessageInput)
    requires Truthy(input.pageId)
    ensures BuildMessagePayload(session, input) ==
      Ok(MessagePayload(input.pageId.value, input.recipientId, input.recipientType, input.message,
                        input.subject, Some(session.sessionId)))
  {
  }

  /** The session id comes from the session alone: every input built against the
      same session carries the same one. */
  lemma SessionIdFromSession(session: SessionPayload, a: MessageInput, b: MessageInput)
    requires BuildMessagePayload(session, a).Ok? && BuildMessagePayload(session, b).Ok?
    ensures BuildMessagePayload(session, a).value.sessionId == BuildMessagePayload(session, b).value.sessionId
  {
  }
}

=== FILE: wrappers.dfy ===
/** Optional values (TypeScript's `T | undefined`) and outcomes that may fail
    (a thrown `Error` or a rejected schema). */
module Wrappers {

  datatype Option<+T> = None | Some(value: T)

  datatype Result<+T, +E> = Ok(value: T) | Err(error: E)

  /** JavaScript truthiness of an optional string: `undefined` and `""` are falsy. */
  predicate Truthy(s: Option<string>) {
    s.Some? && s.value != ""
  }

  /** `a || b` on optional strings: the first truthy operand, else the last one. */
  function OrElse(a: Option<string>, b: Option<string>): (r: Option<string>)
    ensures Truthy(a) ==> r == a
    ensures !Truthy(a) ==> r == b
  {
    if Truthy(a) then a else b
  }
}
